=== FILE: README.md ===
# wp-md in Dafny

wp-md converts a WordPress export into Markdown files for static-site
generators such as Pelican and mynt. Its core is `HtmlPreProcessor`. This is
an HTML-to-Markdown transcoder driven by an HTML tokenizer's callbacks. It
keeps an output buffer, a flag for an open `<pre>` block, and the link of the
last `<a>`:

- Paragraphs, code spans, emphasis and links become Markdown.
- `<pre>` blocks become fenced code, and the language line depends on the
  target Markdown dialect (misaka or Python-Markdown).
- Any other tag is copied through as HTML.
- Closing an emphasis span repairs the output. An empty span is dropped
  instead of leaving a dangling marker.
- `readmd` collapses runs of three or more newlines to two.

Around the transcoder, `Exporter` derives a post's output fields. It builds
slugs from titles, the Pelican date, category and tag list, and the mynt file
name, whose draft posts get a leading `_`. It also splits an RSS item's
`<category>` elements into categories and tags.

The modules:

- `Outcomes`: `Option` and `Result`.
- `PyStr`: the Python string operations the program uses, on ASCII. These are
  `rstrip()`, `rstrip(cs)`, `strip()` and the `lstrip(cs)` that `strip()` is
  built from, `lower`, `endswith`, `in`, `join` and single-character
  `replace`.
- `Newlines`: the newline collapse of `readmd`, and what it keeps.
- `Transcoder`: the processor state, the four callbacks as one `Step`, the
  feed as `Run`, and `_markdownify`.
- `TranscoderFacts`: what each kind of event does to the buffer.
  - When a feed raises.
  - The code-block flag.
  - The repair close.
  - What carries over from one post to the next.
- `TranscoderExamples`: small fragments converted in full, including the
  inputs that expose the two findings below.
- `Exporter`: the slug, the Pelican fields, the mynt file name, the dialect
  an export uses, and the RSS classifier split.
- `ExporterFacts`: what these promise.

The main model follows the code as written, including its two defects. The
corrected definitions stand beside it and are proved to do what was intended.
For the emphasis close, the intent comes from the comment at wpmd.py:82: an
empty span gets no end tag. So the evident intent is to remove the one marker
that opened that span. The code calls `rstrip(end)` at wpmd.py:84 instead, and
that removes every trailing character that occurs in the marker.

## Model

| member | source | states |
|---|---|---|
| Transcoder.New | wpmd.py:50-55 | A new processor has an empty buffer, no open `<pre>`, no recorded link, and the dialect it was given, even an unknown one. |
| Transcoder.Reset | wpmd.py:57-60 | After `reset` the buffer is empty and no `<pre>` is open; the dialect and the recorded link survive. |
| Transcoder.ReadMd | wpmd.py:62-63 | `readmd` output never holds three newlines in a row, keeps every non-newline character in order, and returns a buffer without such a run unchanged. |
| Transcoder.HandleData | wpmd.py:65-71 | Text is appended to the buffer and nothing else changes. |
| Transcoder.TrailingBlank | wpmd.py:54 | The `[ \t\n]\Z` capture: exactly the last character when it is a space, tab or newline, otherwise empty. |
| Transcoder.HandleEntityRef | wpmd.py:91-96 | Inside `<pre>` the reference is appended literally as `&name;`, elsewhere decoded; the flag, link and dialect are untouched. |
| Transcoder.FindLang | wpmd.py:101-105 | A `<pre>` has a language exactly when some attribute is named `lang` in any case; it is the lower-cased value of the first such attribute. |
| Transcoder.LinkFold | wpmd.py:123-128 | For each of `href` and `title` the last occurrence among the attributes wins, and an absent one keeps its default. |
| Transcoder.AttrsText | wpmd.py:136-137 | The attribute text is empty exactly when the tag has no attributes. |
| Transcoder.MarkdownifyFresh | wpmd.py:57-60 | The corrected `_markdownify`: on any processor, it succeeds exactly when a newly constructed processor of the same dialect does, and then produces the same Markdown. |
| Transcoder.Run | wpmd.py:98-160 | A feed never changes the processor's dialect. |
| Newlines.Collapse | wpmd.py:63 | The collapse never lengthens the text and leaves no `"\n\n\n"`. It keeps the first character when that is not a newline, and keeps whether the text starts with one or with two newlines. |
| Newlines.CollapseIdentity | wpmd.py:63 | Text without three newlines in a row is left exactly as it is. |
| Newlines.CollapseIdempotent | wpmd.py:63 | Normalising twice is normalising once. |
| Newlines.CollapseKeepsText | wpmd.py:63 | The collapse removes only newlines: with the newlines deleted, input and output are equal. |
| Newlines.CollapseSplit | wpmd.py:63 | The collapse can be split at any point not preceded by a newline: no run spans the cut, so each side is collapsed on its own. |
| Newlines.CollapseRun | wpmd.py:63 | A leading run of `k` newlines before other text becomes exactly two newlines when `k` is three or more, and is kept when `k` is one or two. |
| Newlines.CollapseRunBetween | wpmd.py:63 | A maximal run of `k` newlines between two pieces of text becomes exactly `"\n\n"` when `k >= 3`, and stays as it is otherwise. The text on either side is collapsed on its own. |
| PyStr.RStripIn | wpmd.py:84 | `rstrip(cs)` keeps a prefix; every removed character is in `cs`, and the kept prefix does not end in one. |
| PyStr.LStripIn | wpmd.py:219 | `lstrip(cs)` keeps a suffix; every removed character is in `cs`, and the kept suffix does not start with one. |
| PyStr.Lower | wpmd.py:219 | `lower()` keeps the length and lower-cases each ASCII letter in place. |
| PyStr.Replace | wpmd.py:220-223 | After replacing a character with text that does not contain it, the character is gone; every other character of the result came from the input or from the replacement. |
| PyStr.ReplaceConcat | wpmd.py:220-223 | `replace` acts on each part of a concatenation separately. |
| PyStr.ReplaceSingle | wpmd.py:220-223 | On one character, `replace` gives the replacement text if the character is the one replaced, and otherwise the character itself. With `ReplaceConcat`, every other character is kept in place and in order. |
| PyStr.Join | wpmd.py:254-255 | Joining nothing gives the empty string, and joining one item gives that item. |
| PyStr.JoinConcat | wpmd.py:254-255 | Joining two non-empty lists one after the other is joining each, with one separator between. Together with the `Join` cases this fixes `join` for every list. |
| PyStr.RStripInDrops | wpmd.py:84 | Characters of `cs` appended to text that does not end in one are exactly what `rstrip(cs)` removes. |
| PyStr.RStripInAbsorbs | wpmd.py:84 | Appending characters of `cs` does not change what `rstrip(cs)` keeps. |
| TranscoderFacts.RunConcat | wpmd.py:214 | Feeding two pieces one after the other is feeding their concatenation, and an error in the first piece ends the feed. |
| TranscoderFacts.StepAppendOnly | wpmd.py:65-160 | Every event other than an emphasis end tag keeps the old buffer as a prefix. |
| TranscoderFacts.RunAppendOnly | wpmd.py:65-160 | A feed with no emphasis end tag only ever extends the buffer. |
| TranscoderFacts.DataAppends | wpmd.py:65-71 | Text appends itself and changes nothing else. |
| TranscoderFacts.MarkupAppends | wpmd.py:118-133 | `p` appends a newline and `code` a backtick, at both ends. `em`/`i` open with `_`, and `strong`/`b` with `**`. |
| TranscoderFacts.PassThrough | wpmd.py:134-140 | An unknown start tag is written back as `<tag>`, or as `<tag a="v" ...>` with its attributes space-joined. An unknown end tag becomes `</tag>`. |
| TranscoderFacts.AttrsTextIsJoin | wpmd.py:136 | The attribute text is the space-join of the `name="value"` pairs. |
| TranscoderFacts.InPreFollowsLastFence | wpmd.py:99-100 | After a feed, a `<pre>` block is open exactly when the last `<pre>` or `</pre>` fed opened one. With neither fed, the flag is unchanged. |
| TranscoderFacts.EntityAfterFeed | wpmd.py:91-96 | After a feed, an entity reference is literal when the last fence event opened a `<pre>`, and decoded when it closed one. |
| TranscoderFacts.PreWithoutLang | wpmd.py:116-117 | Without a `lang` attribute, `<pre>` opens a bare `~~~` fence under any dialect, even an unknown one. `</pre>` clears the flag and writes the closing fence. |
| TranscoderFacts.PreWithLang | wpmd.py:101-115 | With a `lang` attribute, misaka and `None` write `~~~ { lang }` and markdown writes `~~~` followed by `:::lang`. Every other dialect raises. |
| TranscoderFacts.LinkSpan | wpmd.py:122-129 | `<a>text</a>` writes `[`, the text and the link close, and records the link. Missing `href` or `title` are empty. |
| TranscoderFacts.EndAnchor | wpmd.py:148-152 | `</a>` raises exactly when no link was ever recorded; otherwise it appends that link's close. |
| TranscoderFacts.StepErrIff | wpmd.py:106-114 | One event raises exactly when it is a `<pre>` with a language under an unknown dialect, or an `</a>` with no link recorded. |
| TranscoderFacts.RunOkIff | wpmd.py:98-160 | A feed succeeds exactly when none of its events raises, where an `</a>` counts as having a link if an earlier `<a>` in the feed recorded one. |
| TranscoderFacts.PlainStep | wpmd.py:65-160 | Outside a code block, one event other than a formatting tag appends its plain output and changes nothing else. That output is text as is, entities decoded, `p` as a newline, and other tags as HTML. |
| TranscoderFacts.TextPassesThrough | wpmd.py:65-160 | Outside a code block, a feed without `pre`, `code`, `a`, `em`, `i`, `strong` or `b` never raises. It writes the text with entities decoded, each `<p>`/`</p>` as a newline, and every other tag as HTML. |
| TranscoderFacts.ReadMdCollapsesRun | wpmd.py:62-63 | In `readmd`, a maximal run of three or more newlines in the buffer becomes exactly two newlines, and a run of one or two is kept. |
| TranscoderFacts.RepairCloseNormal | wpmd.py:79-89 | Closing a span with text in it: the marker follows the last visible character, and only a trailing space, tab or newline is put back. |
| TranscoderFacts.RepairCloseEmptySpan | wpmd.py:79-89 | Closing an empty or whitespace-only span: every trailing marker character goes, and no marker is added. |
| TranscoderFacts.EmphasisRun | wpmd.py:130-133 | An emphasis span over one piece of text is the open marker, the text, then the repair close. |
| TranscoderFacts.EmptyEmphasisDropped | wpmd.py:155-158 | `<em>`, whitespace, `</em>` (and i, strong, b) leave no marker behind when the buffer before did not end in a marker character. |
| TranscoderFacts.EmphasisSpan | wpmd.py:155-158 | `<em>text ws</em>` wraps the visible text in markers and keeps one trailing blank after the close. |
| TranscoderFacts.RepairCloseOnceEmptySpan | wpmd.py:83-84 | The corrected close removes exactly the opening marker of an empty span and nothing before it. |
| TranscoderFacts.RepairCloseOnceAgrees | wpmd.py:85-86 | On a span with text in it, the corrected close and the close as written agree. |
| TranscoderFacts.MarkdownifyForgetsText | wpmd.py:57-60 | `_markdownify` depends only on the dialect and the recorded link of the processor it is given. Earlier posts' text and code-block flag do not matter. |
| TranscoderFacts.FreshPostsDoNotLeak | wpmd.py:210-215 | With the corrected reset, converting a post gives the same outcome whatever processor state earlier posts left. |
| TranscoderFacts.KnownInterpreterNeverRaises | wpmd.py:106-114 | Under misaka, markdown or `None`, a feed can raise only for an `</a>` without a link. |
| TranscoderExamples.HelloWorld | wpmd.py:118-158 | `<p>Hello <strong>world</strong>!</p>` converts to `"\nHello **world**!\n"`. |
| TranscoderExamples.CloseStripsTooMuch | wpmd.py:83-84 | As written, closing the empty span in `"_x__"` gives `"_x"`. |
| TranscoderExamples.CloseOnceKeepsMarker | wpmd.py:83-84 | The corrected close of the same buffer gives `"_x_"`. |
| TranscoderExamples.StrongCloseStripsTooMuch | wpmd.py:83-84 | As written, closing the empty strong span in `"**x****"` gives `"**x"`. |
| TranscoderExamples.StrongCloseOnceKeepsMarker | wpmd.py:83-84 | The corrected close of the same buffer gives `"**x**"`. |
| TranscoderExamples.EmptySpanAfterSpan | wpmd.py:155-156 | As written, `<em>x</em><em></em>` leaves `_x`, because the empty span takes the previous span's closing marker with it. |
| TranscoderExamples.StrayEndAnchor | wpmd.py:148-152 | After `reset`, a stray `</a>` writes whatever link an earlier post recorded, and raises only if none did. |
| TranscoderExamples.StaleLinkLeaksAcrossPosts | wpmd.py:123 | After a post with a link, a later post with a stray `</a>` is given that link. A fresh processor, or the corrected reset, raises instead. |
| Exporter.SliceTo | wpmd.py:245 | `s[:stop]` keeps a prefix whose length is clamped to the string; a negative stop counts from the end. |
| Exporter.SliceFrom | wpmd.py:255 | `s[start:]` is what follows the first `start` items, and is empty past the end. |
| Exporter.DialectFor | wpmd.py:201 | The export's dialect is always a known one: misaka for mynt and markdown for every other format. |
| Exporter.PelicanFields | wpmd.py:240-258 | A post without content is skipped. The slug is `_slugify` of the title. The date is a prefix that loses three characters, clamped at empty. The status is `published` exactly for `publish` or `published`, and otherwise unchanged. |
| Exporter.MyntFilename | wpmd.py:311-314 | A post without content gets no file. |
| Exporter.PartitionClassifiers | wpmd.py:451-459 | The loop yields all classifier texts in order, plus the `category`-domain texts and all other texts. |
| ExporterFacts.SlugifyIsCharwise | wpmd.py:218-223 | The chained replacements act character by character on the stripped, lower-cased text. Commas and dots are dropped, `/` becomes `+`, and a space becomes `-`. |
| ExporterFacts.SlugifyIsClean | wpmd.py:218-223 | A slug contains no comma, dot, space, slash or upper-case letter, and is no longer than the title. |
| ExporterFacts.MdSlugNoDot | wpmd.py:313-314 | The slug of `x.md` has no dot, with or without the draft prefix. |
| ExporterFacts.MdSlugEndsMd | wpmd.py:313-314 | The slug of `x.md` ends in `md`, with or without the draft prefix. |
| ExporterFacts.MyntFilenameShape | wpmd.py:313-319 | The mynt file name has no dot and ends in `md`. It is the slug of `date-title.md`, with `_` in front exactly when the status contains `draft`. |
| ExporterFacts.PelicanTagString | wpmd.py:254-255 | The Pelican tag string is the tags joined with `", "`, then `", "` and the categories after the first. Either part appears alone when the other is empty. |
| ExporterFacts.PelicanKeepsClassifiers | wpmd.py:250-255 | With categories, the first is the category, and together with the tag list it is a permutation of tags plus categories. Without categories, the category is empty and the tag list is the tags. |
| ExporterFacts.PartitionIsExact | wpmd.py:451-459 | Categories and tags together are the classifiers, each as often as it occurs. Their lengths add up. |
| ExporterFacts.PartitionByDomain | wpmd.py:454-459 | A category comes from a classifier with domain `category`; a tag comes from one with another domain or none. |
| ExporterFacts.ExportDialectNeverRaises | wpmd.py:201-202 | `_markdownify` on the processor an export builds, in whatever state earlier posts left it, raises only for an `</a>` without a link. |

## Left out

- HTML tokenisation is not modelled: splitting text into tags, lower-casing tag and attribute names, character references, self-closing tags, and attributes without a value. The model takes the tokenizer's callbacks as a sequence of events.
- Entity decoding (`unescape` of the HTML parser library) is a parameter of the model. Its code is not part of this model.
- The XML readers (`get_posts_from_pma_xml`, and ElementTree parsing in `get_posts_from_wp_rss`) are not modelled. Only the classifier split of an RSS item is.
- File writing, encoding and the `%` template rendering of the `export_to_*` methods are I/O.
- Exporter.PelicanFields: the converted content is not part of the record. It is `_markdownify` of the body, which `Transcoder.Markdownify` models.
- The YAML title escaping in `export_to_mynt` relies on Python's `repr`.
- `export_to_nikola`, the `getattr` dispatch of `Exporter.__init__`, `parse_args` and `main` are not modelled.
- `exporter.py` is an older copy of the reader and the mynt writer, made up of XML and file I/O.
- Strings are ASCII. Python 2 `unicode` whitespace and case folding cover more characters than `PyStr.Whitespace` and `PyStr.LowerChar`.
- Exporter.MyntFilename: its own contract says only when a file is written. The shape of the name is stated by `ExporterFacts.MyntFilenameShape`.
- Transcoder.Run: its own contract says only that the dialect is kept. What a feed does is stated by the `TranscoderFacts` lemmas.
- Newlines.Collapse is a left-to-right recursion, not a regular-expression engine. Its own contract does not say that a run of three or more newlines becomes exactly two. `Newlines.CollapseRunBetween` states that, for every maximal run.
- Transcoder.ReadMd: its own contract does not say that a run of three or more newlines becomes exactly two. `TranscoderFacts.ReadMdCollapsesRun` states it.
- Exporter.Post: only `content` may be absent. An element with no text is `None` in the readers. A missing title or date raises, in `_slugify`, in the slice `[:-3]` or in `+`. A missing status raises only in mynt's `'draft' in` test, and a missing tag or later category only in Pelican's `join`. A missing first category, or a missing status under Pelican, is written out as the text `None`. The model's strings are always present, so none of this is modelled.

## Findings

| source | as written | input that shows it | evidently intended | confidence | as-written member | corrected member |
|---|---|---|---|---|---|---|
| wpmd.py:83-84 | `rstrip(end)` strips every trailing character of the marker set | `<em>x</em><em></em>` gives `_x` instead of `_x_` | Remove only the one marker that opened the empty span | not executed | TranscoderExamples.EmptySpanAfterSpan | TranscoderFacts.RepairCloseOnceEmptySpan |
| wpmd.py:57-60 | `reset` keeps the `link` of an earlier post | a post with `<a href="h">`, then a post with text and a stray `</a>`: the second gets `](h) ` | State is fully reset between posts, so the stray `</a>` raises as on a fresh processor | not executed | TranscoderExamples.StaleLinkLeaksAcrossPosts | TranscoderFacts.FreshPostsDoNotLeak |

=== FILE: exporter.dfy ===
/**
 * The pure parts of `Exporter`: the slug of a title, the dialect a target
 * format is converted for, the fields a Pelican post is written with, the
 * file name of a mynt post, and the split of an RSS item's `<category>`
 * elements into categories and tags.
 */
module Exporter {
  import opened Outcomes
  import opened PyStr
  import Transcoder

  // ---------------------------------------------------------------------------
  // Slugs

  /** `_slugify`: lower-case, strip, then drop commas, turn `/` into `+` and
      spaces into `-`, and drop dots. */
  function Slugify(txt: string): string {
    Replace(Replace(Replace(Replace(Strip(Lower(txt)), ',', ""), '/', "+"), ' ', "-"), '.', "")
  }

  /** What the four replacements do to one character. */
  function SlugChar(c: char): (s: string)
    ensures |s| <= 1
  {
    if c == ',' || c == '.' then ""
    else if c == '/' then "+"
    else if c == ' ' then "-"
    else [c]
  }

  /** The replacements applied character by character. */
  function SlugChars(s: string): (r: string)
    ensures |r| <= |s|
    decreases |s|
  {
    if |s| == 0 then "" else SlugChar(s[0]) + SlugChars(s[1..])
  }

  // ---------------------------------------------------------------------------
  // Python slices

  /** `s[:stop]`: a negative stop counts from the end; both are clamped. */
  function SliceTo<T>(s: seq<T>, stop: int): (r: seq<T>)
    ensures r <= s
    ensures stop >= 0 ==> |r| == if stop <= |s| then stop else |s|
    ensures stop < 0 ==> |r| == if |s| + stop >= 0 then |s| + stop else 0
  {
    var k := if stop < 0 then |s| + stop else stop;
    if k <= 0 then [] else if k >= |s| then s else s[..k]
  }

  /** `s[start:]` for a start that is not negative. */
  function SliceFrom<T>(s: seq<T>, start: nat): (r: seq<T>)
    ensures start <= |s| ==> s == s[..start] + r
    ensures start >= |s| ==> r == []
  {
    if start >= |s| then [] else s[start..]
  }

  // ---------------------------------------------------------------------------
  // Posts

  /** The record the readers produce. `content` is the post body as HTML, or
      `None` for a post without one. */
  datatype Post = Post(
    date: string,
    author: string,
    content: Option<string>,
    title: string,
    status: string,
    tags: seq<string>,
    categories: seq<string>,
    classifiers: seq<string>)

  /** The dialect `Exporter.__init__` builds its processor for: misaka for
      mynt, markdown for every other format. */
  function DialectFor(destFormat: string): (d: Option<string>)
    ensures Transcoder.KnownInterpreter(d)
    ensures d == Some("misaka") <==> destFormat == "mynt"
    ensures destFormat != "mynt" ==> d == Some("markdown")
  {
    if destFormat == "mynt" then Some("misaka") else Some("markdown")
  }

  /** The fields `export_to_pelican` derives for its template. */
  datatype PelicanMeta = PelicanMeta(
    slug: string,
    date: string,
    category: string,
    tags: string,
    status: string)

  /** Pelican allows one category: the tags are followed by every category
      but the first. */
  function PelicanTagList(post: Post): seq<string> {
    post.tags + SliceFrom(post.categories, 1)
  }

  /** `export_to_pelican` before rendering: a post without content is
      skipped; otherwise the slug, the date without its last three
      characters (the seconds), the first category, the remaining tags joined
      with ", ", and `publish` renamed to `published`. */
  function PelicanFields(post: Post): (m: Option<PelicanMeta>)
    ensures m.None? <==> post.content.None?
    ensures m.Some? ==> m.value.slug == Slugify(post.title)
    ensures m.Some? ==> m.value.date <= post.date
    ensures m.Some? ==> |m.value.date| == if |post.date| >= 3 then |post.date| - 3 else 0
    ensures m.Some? ==> (m.value.status == "published" <==> post.status in {"publish", "published"})
    ensures m.Some? && post.status != "publish" ==> m.value.status == post.status
  {
    if post.content.None? then None
    else
      Some(PelicanMeta(
        Slugify(post.title),
        SliceTo(post.date, -3),
        if |post.categories| > 0 then post.categories[0] else "",
        Join(", ", PelicanTagList(post)),
        if post.status == "publish" then "published" else post.status))
  }

  /** The file name `export_to_mynt` writes a post to: the slug of
      `date-title.md` (where the dot of `.md` does not survive), with a
      leading `_` for drafts, which mynt skips; `None` for a post without
      content. */
  function MyntFilename(post: Post): (name: Option<string>)
    ensures name.None? <==> post.content.None?
  {
    if post.content.None? then None
    else
      var filename := Slugify(post.date + "-" + post.title + ".md");
      Some(if Contains(post.status, "draft") then "_" + filename else filename)
  }

  // ---------------------------------------------------------------------------
  // RSS classifiers

  /** One `<category>` element of an RSS item: its text and its `domain`
      attribute, if any. */
  datatype Classifier = Classifier(text: string, domain: Option<string>)

  predicate IsCategory(c: Classifier) {
    c.domain == Some("category")
  }

  /** The texts of the classifiers, in order. */
  function Texts(cls: seq<Classifier>): (r: seq<string>)
    ensures |r| == |cls|
    decreases |cls|
  {
    if |cls| == 0 then [] else Texts(cls[..|cls| - 1]) + [cls[|cls| - 1].text]
  }

  /** The texts of the classifiers whose domain is `category`, in order. */
  function CategoryTexts(cls: seq<Classifier>): seq<string>
    decreases |cls|
  {
    if |cls| == 0 then []
    else
      var last := cls[|cls| - 1];
      CategoryTexts(cls[..|cls| - 1]) + (if IsCategory(last) then [last.text] else [])
  }

  /** The texts of all other classifiers, in order. */
  function TagTexts(cls: seq<Classifier>): seq<string>
    decreases |cls|
  {
    if |cls| == 0 then []
    else
      var last := cls[|cls| - 1];
      TagTexts(cls[..|cls| - 1]) + (if IsCategory(last) then [] else [last.text])
  }

  /** The loop of `get_posts_from_wp_rss` over an item's `<category>`
      elements: each text goes to the classifiers, and to the categories when
      its domain is `category`, otherwise to the tags. */
  method PartitionClassifiers(cls: seq<Classifier>)
    returns (classifiers: seq<string>, categories: seq<string>, tags: seq<string>)
    ensures classifiers == Texts(cls)
    ensures categories == CategoryTexts(cls)
    ensures tags == TagTexts(cls)
  {
    classifiers, categories, tags := [], [], [];
    for i := 0 to |cls|
      invariant classifiers == Texts(cls[..i])
      invariant categories == CategoryTexts(cls[..i])
      invariant tags == TagTexts(cls[..i])
    {
      assert cls[..i + 1][..i] == cls[..i];
      var cl := cls[i].text;
      classifiers := classifiers + [cl];
      if cls[i].domain == Some("category") {
        categories := categories + [cl];
      } else {
        tags := tags + [cl];
      }
    }
    assert cls[..|cls|] == cls;
  }
}

=== FILE: exporter_facts.dfy ===
/**
 * What the exporter's pure helpers promise: slugs are the character-wise
 * replacement of the stripped, lower-cased title and contain no comma, dot,
 * space or slash; mynt file names lose the dot of `.md`; Pelican keeps every
 * classifier; the RSS split puts every classifier in exactly one of the two
 * lists.
 */
module ExporterFacts {
  import opened Outcomes
  import opened PyStr
  import opened Exporter
  import Transcoder
  import TranscoderFacts

  // ---------------------------------------------------------------------------
  // Slugs

  /** The four replacements applied to a text `t` of at most one character
      (an empty one when an earlier replacement dropped the character). */
  function Replacements(t: string): string {
    Replace(Replace(Replace(Replace(t, ',', ""), '/', "+"), ' ', "-"), '.', "")
  }

  lemma ReplacementsOfEmpty()
    ensures Replacements("") == ""
  {
  }

  lemma ReplacementsOfOne(c: char)
    ensures Replacements([c]) == SlugChar(c)
  {
    ReplaceSingle(c, ',', "");
    if c == ',' {
      ReplacementsOfEmpty();
    } else {
      ReplaceSingle(c, '/', "+");
      if c == '/' {
        ReplaceSingle('+', ' ', "-");
        ReplaceSingle('+', '.', "");
      } else {
        ReplaceSingle(c, ' ', "-");
        if c == ' ' {
          ReplaceSingle('-', '.', "");
        } else {
          ReplaceSingle(c, '.', "");
        }
      }
    }
  }

  lemma ReplacementsConcat(a: string, b: string)
    ensures Replacements(a + b) == Replacements(a) + Replacements(b)
  {
    ReplaceConcat(a, b, ',', "");
    var a1, b1 := Replace(a, ',', ""), Replace(b, ',', "");
    ReplaceConcat(a1, b1, '/', "+");
    var a2, b2 := Replace(a1, '/', "+"), Replace(b1, '/', "+");
    ReplaceConcat(a2, b2, ' ', "-");
    var a3, b3 := Replace(a2, ' ', "-"), Replace(b2, ' ', "-");
    ReplaceConcat(a3, b3, '.', "");
  }

  /** The four chained replacements are one pass of `SlugChar`. */
  lemma {:induction false} ReplacementsAreCharwise(s: string)
    ensures Replacements(s) == SlugChars(s)
    decreases |s|
  {
    if |s| > 0 {
      ReplacementsAreCharwise(s[1..]);
      assert s == [s[0]] + s[1..];
      ReplacementsConcat([s[0]], s[1..]);
      ReplacementsOfOne(s[0]);
    }
  }

  /** `_slugify` is the character-wise replacement of the stripped,
      lower-cased text. */
  lemma SlugifyIsCharwise(txt: string)
    ensures Slugify(txt) == SlugChars(Strip(Lower(txt)))
  {
    ReplacementsAreCharwise(Strip(Lower(txt)));
    assert Slugify(txt) == Replacements(Strip(Lower(txt)));
  }

  lemma {:induction false} SlugCharsConcat(a: string, b: string)
    ensures SlugChars(a + b) == SlugChars(a) + SlugChars(b)
    decreases |a|
  {
    if |a| == 0 {
      assert a + b == b;
    } else {
      assert (a + b)[0] == a[0];
      assert (a + b)[1..] == a[1..] + b;
      SlugCharsConcat(a[1..], b);
    }
  }

  predicate NoUpper(s: string) {
    forall i :: 0 <= i < |s| ==> !IsUpper(s[i])
  }

  lemma NoUpperSlice(s: string, a: nat, b: nat)
    requires NoUpper(s) && a <= b <= |s|
    ensures NoUpper(s[a..b])
  {
    forall i | 0 <= i < b - a
      ensures !IsUpper(s[a..b][i])
    {
      assert s[a..b][i] == s[a + i];
    }
  }

  /** Stripping from both ends keeps a piece of the input. */
  lemma StripInIsSlice(s: string, cs: string)
    ensures var r := RStripIn(s, cs);
      var t := LStripIn(r, cs);
      |t| <= |r| <= |s| && t == s[|r| - |t|..|r|]
  {
    var r := RStripIn(s, cs);
    assert |r| <= |s|;
    assert r == s[..|r|];
    var t := LStripIn(r, cs);
    assert |t| <= |r|;
    assert t == r[|r| - |t|..];
  }

  /** `strip()` keeps a piece of its input. */
  lemma StripIsSlice(s: string)
    ensures exists a, b :: 0 <= a <= b <= |s| && Strip(s) == s[a..b]
  {
    StripInIsSlice(s, Whitespace);
    var r := RStripIn(s, Whitespace);
    var t := LStripIn(r, Whitespace);
    assert Strip(s) == s[|r| - |t|..|r|];
  }

  lemma LowerNoUpper(txt: string)
    ensures NoUpper(Lower(txt))
  {
  }

  /** Stripping lower-cased text leaves no upper-case letter and does not
      lengthen it. */
  lemma StripOfLower(txt: string)
    ensures NoUpper(Strip(Lower(txt)))
    ensures |Strip(Lower(txt))| <= |txt|
  {
    var s := Lower(txt);
    LowerNoUpper(txt);
    StripIsSlice(s);
    var a, b :| 0 <= a <= b <= |s| && Strip(s) == s[a..b];
    NoUpperSlice(s, a, b);
  }

  /** The replacements bring in no upper-case letter and leave no comma,
      dot, space or slash. */
  lemma {:induction false} SlugCharsClean(s: string)
    requires NoUpper(s)
    ensures forall c :: c in SlugChars(s) ==> c !in ",./ " && !IsUpper(c)
    decreases |s|
  {
    if |s| > 0 {
      SlugCharsClean(s[1..]);
      assert !IsUpper(s[0]);
      assert SlugChars(s) == SlugChar(s[0]) + SlugChars(s[1..]);
    }
  }

  /** A slug holds no comma, dot, space, slash or upper-case letter, and is
      no longer than the title. */
  lemma SlugifyIsClean(txt: string)
    ensures forall c :: c in Slugify(txt) ==> c !in ",./ " && !IsUpper(c)
    ensures |Slugify(txt)| <= |txt|
  {
    SlugifyIsCharwise(txt);
    StripOfLower(txt);
    SlugCharsClean(Strip(Lower(txt)));
  }

  // ---------------------------------------------------------------------------
  // mynt file names

  lemma LowerConcat(a: string, b: string)
    ensures Lower(a + b) == Lower(a) + Lower(b)
  {
  }

  lemma LowerOfMd()
    ensures Lower(".md") == ".md"
  {
    assert LowerChar('.') == '.' && LowerChar('m') == 'm' && LowerChar('d') == 'd';
  }

  lemma SlugCharsOfMd()
    ensures SlugChars(".md") == "md"
  {
    assert ".md"[1..] == "md" && "md"[1..] == "d" && "d"[1..] == "";
  }

  /** Stripping a string that ends in `.md` keeps that ending. */
  lemma StripKeepsMd(x: string)
    ensures exists y :: Strip(x + ".md") == y + ".md"
  {
    var s := x + ".md";
    RStripInDrops(s, "", Whitespace);
    assert s + "" == s;
    var r := LStripIn(s, Whitespace);
    assert s[|s| - 1] == 'd' && s[|s| - 2] == 'm' && s[|s| - 3] == '.';
    assert |s| - |r| <= |s| - 3;
    assert r == r[..|r| - 3] + ".md";
  }

  /** The slug of a name ending in `.md` ends in `md`. */
  lemma SlugOfMd(x: string)
    ensures exists z :: Slugify(x + ".md") == z + "md"
  {
    LowerConcat(x, ".md");
    LowerOfMd();
    StripKeepsMd(Lower(x));
    var y :| Strip(Lower(x) + ".md") == y + ".md";
    SlugifyIsCharwise(x + ".md");
    SlugCharsConcat(y, ".md");
    SlugCharsOfMd();
    assert Slugify(x + ".md") == SlugChars(y) + "md";
  }

  lemma EndsWithMd(pre: string, z: string)
    ensures EndsWith(pre + z + "md", "md")
  {
    assert (pre + z + "md")[|pre + z|..] == "md";
  }

  /** The slug of `x.md`, with or without the draft prefix, has no dot. */
  lemma MdSlugNoDot(x: string)
    ensures '.' !in Slugify(x + ".md")
    ensures '.' !in "_" + Slugify(x + ".md")
  {
    SlugifyIsClean(x + ".md");
  }

  /** The slug of `x.md`, with or without the draft prefix, ends in `md`. */
  lemma MdSlugEndsMd(x: string)
    ensures EndsWith(Slugify(x + ".md"), "md")
    ensures EndsWith("_" + Slugify(x + ".md"), "md")
  {
    SlugOfMd(x);
    var z :| Slugify(x + ".md") == z + "md";
    EndsWithMd("_", z);
    EndsWithMd("", z);
    assert "" + z + "md" == z + "md";
  }

  /** The mynt file name never contains a dot: the `.md` it was given ends up
      as a bare `md`. A draft (any status containing "draft") gets a leading
      `_`; nothing else changes between a draft and a published post. */
  lemma MyntFilenameShape(post: Post)
    requires post.content.Some?
    ensures '.' !in MyntFilename(post).value
    ensures EndsWith(MyntFilename(post).value, "md")
    ensures var slug := Slugify(post.date + "-" + post.title + ".md");
      MyntFilename(post).value == if Contains(post.status, "draft") then "_" + slug else slug
  {
    var x := post.date + "-" + post.title;
    MdSlugNoDot(x);
    MdSlugEndsMd(x);
    assert post.date + "-" + post.title + ".md" == x + ".md";
  }

  // ---------------------------------------------------------------------------
  // Pelican

  /** Pelican loses no classifier: the category and the tag list together
      are the post's tags and categories. Without categories the category is
      empty and the tag list is the tags. */
  lemma PelicanKeepsClassifiers(post: Post)
    requires post.content.Some?
    ensures var m := PelicanFields(post).value;
      |post.categories| > 0 ==>
        m.category == post.categories[0]
        && multiset([m.category]) + multiset(PelicanTagList(post)) == multiset(post.tags + post.categories)
    ensures var m := PelicanFields(post).value;
      |post.categories| == 0 ==> m.category == "" && PelicanTagList(post) == post.tags
    ensures PelicanFields(post).value.tags == Join(", ", PelicanTagList(post))
  {
    if |post.categories| > 0 {
      assert post.categories == [post.categories[0]] + post.categories[1..];
    } else {
      assert post.tags + [] == post.tags;
    }
  }

  /** The Pelican tag string: the tags joined with ", ", then ", " and the
      categories after the first, joined the same way; either part alone when
      the other is empty. */
  lemma PelicanTagString(post: Post)
    requires post.content.Some?
    ensures var m := PelicanFields(post).value;
      var rest := SliceFrom(post.categories, 1);
      && (|post.tags| > 0 && |rest| > 0 ==> m.tags == Join(", ", post.tags) + ", " + Join(", ", rest))
      && (|rest| == 0 ==> m.tags == Join(", ", post.tags))
      && (|post.tags| == 0 ==> m.tags == Join(", ", rest))
  {
    var rest := SliceFrom(post.categories, 1);
    if |post.tags| > 0 && |rest| > 0 {
      JoinConcat(", ", post.tags, rest);
    }
    assert post.tags + [] == post.tags;
    assert [] + rest == rest;
  }

  // ---------------------------------------------------------------------------
  // RSS classifiers

  /** Every classifier lands in exactly one of categories and tags, so the two
      lists together hold the classifiers, each as often as it occurs. */
  lemma {:induction false} PartitionIsExact(cls: seq<Classifier>)
    ensures multiset(CategoryTexts(cls)) + multiset(TagTexts(cls)) == multiset(Texts(cls))
    ensures |CategoryTexts(cls)| + |TagTexts(cls)| == |cls|
    decreases |cls|
  {
    if |cls| > 0 {
      PartitionIsExact(cls[..|cls| - 1]);
    }
  }

  /** A text is among the categories only if some classifier with that text
      has domain `category`, and among the tags only if some classifier with
      that text has another domain or none. */
  lemma {:induction false} PartitionByDomain(cls: seq<Classifier>)
    ensures forall t :: t in CategoryTexts(cls) ==> exists i :: 0 <= i < |cls| && cls[i].text == t && IsCategory(cls[i])
    ensures forall t :: t in TagTexts(cls) ==> exists i :: 0 <= i < |cls| && cls[i].text == t && !IsCategory(cls[i])
    decreases |cls|
  {
    if |cls| > 0 {
      var init := cls[..|cls| - 1];
      PartitionByDomain(init);
      forall t | t in CategoryTexts(cls)
        ensures exists i :: 0 <= i < |cls| && cls[i].text == t && IsCategory(cls[i])
      {
        if t in CategoryTexts(init) {
          var i :| 0 <= i < |init| && init[i].text == t && IsCategory(init[i]);
          assert cls[i] == init[i];
        } else {
          assert cls[|cls| - 1].text == t;
        }
      }
      forall t | t in TagTexts(cls)
        ensures exists i :: 0 <= i < |cls| && cls[i].text == t && !IsCategory(cls[i])
      {
        if t in TagTexts(init) {
          var i :| 0 <= i < |init| && init[i].text == t && !IsCategory(init[i]);
          assert cls[i] == init[i];
        } else {
          assert cls[|cls| - 1].text == t;
        }
      }
    }
  }

  // ---------------------------------------------------------------------------
  // The dialect

  /** The processor an export builds never raises for its dialect, whatever
      earlier posts left in it: the only error `_markdownify` can meet is a
      stray `</a>`. */
  lemma ExportDialectNeverRaises(u: string -> string, destFormat: string, p: Transcoder.Processor, events: seq<Transcoder.Event>)
    requires p.interpreter == DialectFor(destFormat)
    ensures var r := Transcoder.Markdownify(u, p, events);
      r.Err? ==> r.error == Transcoder.NoOpenLink
  {
    TranscoderFacts.KnownInterpreterNeverRaises(u, Transcoder.Reset(p), events);
  }
}

=== FILE: newlines.dfy ===
/**
 * The output normaliser of the transcoder: `re.sub(r'\n\n\n+', '\n\n', buf)`
 * replaces every run of three or more newlines by exactly two. The regular
 * expression scans left to right and its `+` is greedy, so each maximal run
 * of newlines is either left alone (one or two newlines) or collapsed whole.
 */
module Newlines {
  import opened PyStr

  /** `s` starts with (at least) `k` newlines. */
  predicate StartsNewlines(s: string, k: nat) {
    k <= |s| && forall i :: 0 <= i < k ==> s[i] == '\n'
  }

  /** Three newlines in a row start at index `i` of `s`. */
  predicate TripleAt(s: string, i: int) {
    0 <= i && i + 2 < |s| && s[i] == '\n' && s[i + 1] == '\n' && s[i + 2] == '\n'
  }

  /** `s` contains no `"\n\n\n"`. */
  predicate NoTriple(s: string) {
    forall i :: 0 <= i < |s| ==> !TripleAt(s, i)
  }

  /** The collapse, one match (or one skipped character) at a time. */
  function Collapse(s: string): (r: string)
    ensures |r| <= |s|
    ensures NoTriple(r)
    ensures |s| > 0 && s[0] != '\n' ==> |r| > 0 && r[0] == s[0]
    ensures StartsNewlines(r, 1) <==> StartsNewlines(s, 1)
    ensures StartsNewlines(r, 2) <==> StartsNewlines(s, 2)
    decreases |s|
  {
    if StartsNewlines(s, 3) then
      var rest := LStripIn(s, "\n");
      var c := Collapse(rest);
      assert !StartsNewlines(c, 1);
      ConsNoTriple("\n", c);
      StartsCons("\n" + c, 2);
      ConsNoTriple("\n", "\n" + c);
      assert "\n\n" + c == "\n" + ("\n" + c);
      "\n\n" + c
    else if |s| == 0 then ""
    else
      var c := Collapse(s[1..]);
      assert s[0] == '\n' ==> !StartsNewlines(s[1..], 2);
      ConsNoTriple([s[0]], c);
      StartsCons(s, 2);
      StartsCons([s[0]] + c, 2);
      assert ([s[0]] + c)[1..] == c;
      [s[0]] + c
  }

  /** A string starts with `k` newlines when its first character is one and
      the rest starts with `k - 1`. */
  lemma StartsCons(s: string, k: nat)
    requires k > 0
    ensures StartsNewlines(s, k) <==> |s| > 0 && s[0] == '\n' && StartsNewlines(s[1..], k - 1)
  {
    if |s| > 0 && s[0] == '\n' && StartsNewlines(s[1..], k - 1) {
      forall i | 0 <= i < k
        ensures s[i] == '\n'
      {
        if i > 0 {
          assert s[i] == s[1..][i - 1];
        }
      }
    }
  }

  /** Putting one character in front of a string without `"\n\n\n"` creates
      one only when that character and the string's first two are newlines. */
  lemma ConsNoTriple(x: string, c: string)
    requires |x| == 1 && NoTriple(c)
    requires x[0] == '\n' ==> !StartsNewlines(c, 2)
    ensures NoTriple(x + c)
  {
    forall i | 0 <= i < |x + c|
      ensures !TripleAt(x + c, i)
    {
      if i > 0 {
        assert TripleAt(x + c, i) ==> TripleAt(c, i - 1);
      }
    }
  }

  /** `s` with every newline removed: the text the collapse must not touch. */
  function Visible(s: string): (r: string)
    ensures '\n' !in r
    decreases |s|
  {
    if |s| == 0 then ""
    else (if s[0] == '\n' then "" else [s[0]]) + Visible(s[1..])
  }

  /** Text without `"\n\n\n"` is left exactly as it is. */
  lemma {:induction false} CollapseIdentity(s: string)
    requires NoTriple(s)
    ensures Collapse(s) == s
    decreases |s|
  {
    if |s| > 0 {
      assert !StartsNewlines(s, 3) by {
        if StartsNewlines(s, 3) {
          assert TripleAt(s, 0);
        }
      }
      assert NoTriple(s[1..]) by {
        forall i | 0 <= i < |s[1..]|
          ensures !TripleAt(s[1..], i)
        {
          assert TripleAt(s[1..], i) ==> TripleAt(s, i + 1);
        }
      }
      CollapseIdentity(s[1..]);
    }
  }

  /** Normalising twice is normalising once. */
  lemma CollapseIdempotent(s: string)
    ensures Collapse(Collapse(s)) == Collapse(s)
  {
    CollapseIdentity(Collapse(s));
  }

  lemma {:induction false} VisibleConcat(a: string, b: string)
    ensures Visible(a + b) == Visible(a) + Visible(b)
    decreases |a|
  {
    if |a| > 0 {
      assert (a + b)[1..] == a[1..] + b;
      VisibleConcat(a[1..], b);
    } else {
      assert a + b == b;
    }
  }

  lemma {:induction false} VisibleSkipsNewlines(s: string)
    ensures Visible(LStripIn(s, "\n")) == Visible(s)
    decreases |s|
  {
    if |s| > 0 && s[0] == '\n' {
      VisibleSkipsNewlines(s[1..]);
    }
  }

  /** The collapse only ever removes newlines: every other character survives,
      in order. */
  lemma {:induction false} CollapseKeepsText(s: string)
    ensures Visible(Collapse(s)) == Visible(s)
    decreases |s|
  {
    if StartsNewlines(s, 3) {
      var rest := LStripIn(s, "\n");
      CollapseKeepsText(rest);
      VisibleConcat("\n\n", Collapse(rest));
      VisibleSkipsNewlines(s);
    } else if |s| > 0 {
      CollapseKeepsText(s[1..]);
      VisibleConcat([s[0]], Collapse(s[1..]));
    }
  }

  // ---------------------------------------------------------------------------
  // Runs of newlines

  /** `k` newlines. */
  function NewlineRun(k: nat): (s: string)
    ensures |s| == k
    ensures forall i :: 0 <= i < k ==> s[i] == '\n'
  {
    seq(k, _ => '\n')
  }

  /** Leading newlines of `a` are all `lstrip` sees when `a` ends in another
      character. */
  lemma {:induction false} LStripNewlinesConcat(a: string, c: string)
    requires |a| > 0 && a[|a| - 1] != '\n'
    ensures LStripIn(a + c, "\n") == LStripIn(a, "\n") + c
    decreases |a|
  {
    if a[0] == '\n' {
      assert (a + c)[0] == '\n';
      assert (a + c)[1..] == a[1..] + c;
      LStripNewlinesConcat(a[1..], c);
    } else {
      assert (a + c)[0] == a[0];
    }
  }

  /** One step of the collapse at a run of three or more newlines. */
  lemma CollapseAtTriple(s: string)
    requires StartsNewlines(s, 3)
    ensures Collapse(s) == "\n\n" + Collapse(LStripIn(s, "\n"))
  {
  }

  /** One step of the collapse anywhere else. */
  lemma CollapseAtOther(s: string)
    requires |s| > 0 && !StartsNewlines(s, 3)
    ensures Collapse(s) == [s[0]] + Collapse(s[1..])
  {
  }

  /** A string that does not start with three newlines, followed by anything
      when it does not end in a newline, does not either. */
  lemma NoTripleStart(a: string, c: string)
    requires |a| > 0 && a[|a| - 1] != '\n'
    requires !StartsNewlines(a, 3)
    ensures !StartsNewlines(a + c, 3)
  {
    if |a| >= 3 {
      assert forall i :: 0 <= i < 3 ==> a[i] == (a + c)[i];
    } else {
      assert a[|a| - 1] == (a + c)[|a| - 1];
    }
  }

  lemma Assoc(x: string, y: string, z: string)
    ensures x + (y + z) == (x + y) + z
  {
  }

  lemma ConsTail(a: string, c: string)
    requires |a| > 0
    ensures (a + c)[0] == a[0] && (a + c)[1..] == a[1..] + c
  {
  }

  lemma StartsPrefix(a: string, c: string)
    requires StartsNewlines(a, 3)
    ensures StartsNewlines(a + c, 3)
  {
    assert forall i :: 0 <= i < 3 ==> a[i] == (a + c)[i];
  }

  /** The cut lies after a run of three or more newlines at the front of `a`. */
  lemma CollapseSplitTriple(a: string, c: string, rest: string)
    requires StartsNewlines(a, 3) && rest == LStripIn(a, "\n")
    requires LStripIn(a + c, "\n") == rest + c
    requires Collapse(rest + c) == Collapse(rest) + Collapse(c)
    ensures Collapse(a + c) == Collapse(a) + Collapse(c)
  {
    StartsPrefix(a, c);
    CollapseAtTriple(a + c);
    CollapseAtTriple(a);
    Assoc("\n\n", Collapse(rest), Collapse(c));
  }

  /** The cut lies after the first character of `a`, which is kept. */
  lemma CollapseSplitOther(a: string, c: string)
    requires |a| > 0 && !StartsNewlines(a, 3) && !StartsNewlines(a + c, 3)
    requires Collapse(a[1..] + c) == Collapse(a[1..]) + Collapse(c)
    ensures Collapse(a + c) == Collapse(a) + Collapse(c)
  {
    ConsTail(a, c);
    CollapseAtOther(a + c);
    CollapseAtOther(a);
    Assoc([a[0]], Collapse(a[1..]), Collapse(c));
  }

  /** The collapse splits wherever the text before does not end in a newline:
      no run of newlines spans the cut. */
  lemma {:induction false} CollapseSplit(a: string, c: string)
    requires |a| == 0 || a[|a| - 1] != '\n'
    ensures Collapse(a + c) == Collapse(a) + Collapse(c)
    decreases |a|
  {
    if |a| == 0 {
      assert a + c == c;
    } else if StartsNewlines(a, 3) {
      LStripNewlinesConcat(a, c);
      var rest := LStripIn(a, "\n");
      assert |rest| > 0 && rest[|rest| - 1] == a[|a| - 1];
      CollapseSplit(rest, c);
      CollapseSplitTriple(a, c, rest);
    } else {
      NoTripleStart(a, c);
      var tail := a[1..];
      assert |tail| == 0 || tail[|tail| - 1] == a[|a| - 1];
      CollapseSplit(tail, c);
      CollapseSplitOther(a, c);
    }
  }

  /** `lstrip("\n")` removes exactly a leading run of newlines. */
  lemma {:induction false} LStripRun(k: nat, b: string)
    requires |b| == 0 || b[0] != '\n'
    ensures LStripIn(NewlineRun(k) + b, "\n") == b
    decreases k
  {
    if k == 0 {
      assert NewlineRun(k) + b == b;
    } else {
      var s := NewlineRun(k) + b;
      assert s[0] == '\n';
      assert s[1..] == NewlineRun(k - 1) + b;
      LStripRun(k - 1, b);
    }
  }

  /** A run of newlines is one newline followed by a shorter run. */
  lemma RunTail(k: nat, b: string)
    requires k > 0
    ensures (NewlineRun(k) + b)[0] == '\n'
    ensures (NewlineRun(k) + b)[1..] == NewlineRun(k - 1) + b
    ensures "\n" + NewlineRun(k - 1) == NewlineRun(k)
  {
  }

  /** A run of one or two newlines is not the start of a triple. */
  lemma ShortRunNoTriple(k: nat, b: string)
    requires k < 3
    requires |b| == 0 || b[0] != '\n'
    ensures !StartsNewlines(NewlineRun(k) + b, 3)
  {
    if |b| > 0 {
      assert (NewlineRun(k) + b)[k] == b[0];
    }
  }

  /** A run of three or more newlines at the front becomes two. */
  lemma CollapseLongRun(k: nat, b: string)
    requires k >= 3
    requires |b| == 0 || b[0] != '\n'
    ensures Collapse(NewlineRun(k) + b) == "\n\n" + Collapse(b)
  {
    var s := NewlineRun(k) + b;
    assert forall i :: 0 <= i < 3 ==> s[i] == '\n';
    LStripRun(k, b);
    CollapseAtTriple(s);
  }

  /** A run of one or two newlines at the front is kept, one at a time. */
  lemma CollapseShortRunStep(k: nat, b: string)
    requires 0 < k < 3
    requires |b| == 0 || b[0] != '\n'
    requires Collapse(NewlineRun(k - 1) + b) == NewlineRun(k - 1) + Collapse(b)
    ensures Collapse(NewlineRun(k) + b) == NewlineRun(k) + Collapse(b)
  {
    ShortRunNoTriple(k, b);
    RunTail(k, b);
    CollapseAtOther(NewlineRun(k) + b);
    Assoc("\n", NewlineRun(k - 1), Collapse(b));
  }

  /** A run of `k` newlines in front of text that does not start with one: three
      or more become exactly two, one or two are kept. */
  lemma {:induction false} CollapseRun(k: nat, b: string)
    requires |b| == 0 || b[0] != '\n'
    ensures Collapse(NewlineRun(k) + b) == (if k >= 3 then "\n\n" else NewlineRun(k)) + Collapse(b)
    decreases k
  {
    if k >= 3 {
      CollapseLongRun(k, b);
    } else if k == 0 {
      assert NewlineRun(k) + b == b;
    } else {
      CollapseRun(k - 1, b);
      CollapseShortRunStep(k, b);
    }
  }

  /** A maximal run of newlines between two pieces of text collapses to two
      newlines when it has three or more, and is kept otherwise; the text on
      either side is collapsed on its own. */
  lemma CollapseRunBetween(a: string, k: nat, b: string)
    requires |a| == 0 || a[|a| - 1] != '\n'
    requires |b| == 0 || b[0] != '\n'
    ensures Collapse(a + NewlineRun(k) + b)
      == Collapse(a) + (if k >= 3 then "\n\n" else NewlineRun(k)) + Collapse(b)
  {
    var run := NewlineRun(k);
    var m := if k >= 3 then "\n\n" else run;
    Assoc(a, run, b);
    CollapseSplit(a, run + b);
    CollapseRun(k, b);
    Assoc(Collapse(a), m, Collapse(b));
  }
}

=== FILE: outcomes.dfy ===
/** Failure-carrying values shared by the transcoder and the exporter. */
module Outcomes {

  /** A value that may be absent: Python's `None` or a present value. */
  datatype Option<+T> = None | Some(value: T) {

    /** The present value, or `default` when absent. */
    function GetOr(default: T): T {
      match this
      case Some(v) => v
      case None => default
    }
  }

  /** The outcome of an operation that may raise: its value or the error raised. */
  datatype Result<+T, +E> = Ok(value: T) | Err(error: E)
}

=== FILE: pystr.dfy ===
/**
 * The handful of Python string operations the converter relies on, restricted
 * to ASCII: `isspace`, `rstrip()`, `rstrip(cs)`, `strip()` and the
 * `lstrip(cs)` it is built from, `endswith`, `lower`, `in` on strings, `join`
 * and `replace` of one character.
 */
module PyStr {

  /** The characters Python's `str.isspace()` accepts among ASCII: space, tab,
      newline, carriage return, vertical tab and form feed. */
  const Whitespace: string := " \t\n\r\U{0B}\U{0C}"

  predicate IsSpace(c: char) {
    c in Whitespace
  }

  /** Every character of `s` is whitespace. */
  predicate AllSpace(s: string) {
    forall i :: 0 <= i < |s| ==> IsSpace(s[i])
  }

  /** `s.rstrip(cs)`: drops every trailing character that occurs in `cs`
      (a character SET, not a suffix). */
  function RStripIn(s: string, cs: string): (r: string)
    ensures r <= s
    ensures |r| == 0 || r[|r| - 1] !in cs
    ensures forall i :: |r| <= i < |s| ==> s[i] in cs
    decreases |s|
  {
    if |s| > 0 && s[|s| - 1] in cs then RStripIn(s[..|s| - 1], cs) else s
  }

  /** `s.lstrip(cs)`: drops every leading character that occurs in `cs`. */
  function LStripIn(s: string, cs: string): (r: string)
    ensures |r| <= |s| && r == s[|s| - |r|..]
    ensures |r| == 0 || r[0] !in cs
    ensures forall i :: 0 <= i < |s| - |r| ==> s[i] in cs
    decreases |s|
  {
    if |s| > 0 && s[0] in cs then LStripIn(s[1..], cs) else s
  }

  /** `s.rstrip()` with no argument. */
  function RStrip(s: string): string {
    RStripIn(s, Whitespace)
  }

  /** `s.strip()` with no argument. */
  function Strip(s: string): string {
    LStripIn(RStripIn(s, Whitespace), Whitespace)
  }

  /** `s.endswith(suffix)`. */
  predicate EndsWith(s: string, suffix: string) {
    |suffix| <= |s| && s[|s| - |suffix|..] == suffix
  }

  /** `sub in s` for strings: `sub` occurs as a contiguous piece of `s`. */
  predicate Contains(s: string, sub: string) {
    exists i :: 0 <= i <= |s| && OccursAt(s, sub, i)
  }

  /** `sub` occurs in `s` starting at index `i`. */
  predicate OccursAt(s: string, sub: string, i: int) {
    0 <= i <= |s| - |sub| && s[i..i + |sub|] == sub
  }

  predicate IsUpper(c: char) {
    'A' <= c <= 'Z'
  }

  function LowerChar(c: char): (d: char)
    ensures !IsUpper(d)
    ensures IsUpper(c) ==> d as int == c as int + 32
    ensures !IsUpper(c) ==> d == c
  {
    if IsUpper(c) then (c as int + 32) as char else c
  }

  /** `s.lower()`, ASCII letters only. */
  function Lower(s: string): (r: string)
    ensures |r| == |s|
    ensures forall i :: 0 <= i < |s| ==> r[i] == LowerChar(s[i])
  {
    seq(|s|, i requires 0 <= i < |s| => LowerChar(s[i]))
  }

  /** `sep.join(xs)`. */
  function Join(sep: string, xs: seq<string>): (r: string)
    ensures |xs| == 0 ==> r == ""
    ensures |xs| == 1 ==> r == xs[0]
    decreases |xs|
  {
    if |xs| == 0 then ""
    else if |xs| == 1 then xs[0]
    else xs[0] + sep + Join(sep, xs[1..])
  }

  /** `s.replace(from, to)` where `from` is a single character: every
      occurrence of `from` becomes `to`, every other character is kept. */
  function Replace(s: string, from: char, to: string): (r: string)
    ensures from !in to ==> from !in r
    ensures forall c :: c in r && c !in to ==> c in s && c != from
    decreases |s|
  {
    if |s| == 0 then ""
    else (if s[0] == from then to else [s[0]]) + Replace(s[1..], from, to)
  }

  /** Characters from `cs` appended to a string that does not end in one are
      exactly what `rstrip(cs)` removes. */
  lemma {:induction false} RStripInDrops(b: string, tail: string, cs: string)
    requires |b| == 0 || b[|b| - 1] !in cs
    requires forall i :: 0 <= i < |tail| ==> tail[i] in cs
    ensures RStripIn(b + tail, cs) == b
    decreases |tail|
  {
    if |tail| == 0 {
      assert b + tail == b;
    } else {
      assert (b + tail)[..|b + tail| - 1] == b + tail[..|tail| - 1];
      RStripInDrops(b, tail[..|tail| - 1], cs);
    }
  }

  /** Appending characters from `cs` does not change what `rstrip(cs)` keeps. */
  lemma {:induction false} RStripInAbsorbs(b: string, tail: string, cs: string)
    requires forall i :: 0 <= i < |tail| ==> tail[i] in cs
    ensures RStripIn(b + tail, cs) == RStripIn(b, cs)
    decreases |tail|
  {
    if |tail| == 0 {
      assert b + tail == b;
    } else {
      assert (b + tail)[..|b + tail| - 1] == b + tail[..|tail| - 1];
      RStripInAbsorbs(b, tail[..|tail| - 1], cs);
    }
  }

  /** Joining two non-empty lists is joining each and putting one separator
      between them. With the cases of none and one item, this pins `join`
      down completely. */
  lemma {:induction false} JoinConcat(sep: string, xs: seq<string>, ys: seq<string>)
    requires |xs| > 0 && |ys| > 0
    ensures Join(sep, xs + ys) == Join(sep, xs) + sep + Join(sep, ys)
    decreases |xs|
  {
    var zs := xs + ys;
    assert zs[0] == xs[0];
    assert zs[1..] == xs[1..] + ys;
    if |xs| > 1 {
      JoinConcat(sep, xs[1..], ys);
    } else {
      assert xs[1..] + ys == ys;
    }
  }

  /** `replace` works on each part of a concatenation separately. */
  lemma {:induction false} ReplaceConcat(a: string, b: string, from: char, to: string)
    ensures Replace(a + b, from, to) == Replace(a, from, to) + Replace(b, from, to)
    decreases |a|
  {
    if |a| == 0 {
      assert a + b == b;
    } else {
      assert (a + b)[0] == a[0];
      assert (a + b)[1..] == a[1..] + b;
      ReplaceConcat(a[1..], b, from, to);
    }
  }

  /** `replace` on one character: the replacement text if it is `from`,
      otherwise the character itself. With `ReplaceConcat` this fixes the
      result of `replace` character by character, in order. */
  lemma ReplaceSingle(c: char, from: char, to: string)
    ensures Replace([c], from, to) == if c == from then to else [c]
  {
    assert [c][1..] == [];
  }
}

=== FILE: transcoder.dfy ===
/**
 * `HtmlPreProcessor`: the HTML-to-Markdown transcoder of wp-md.
 *
 * The processor is driven by an HTML tokenizer that reports start tags, end
 * tags, text and entity references; each report is one `Event`, and each
 * handler is one case of `Step`. The processor's state is its output buffer,
 * whether a `<pre>` block is open, and the pending link of the last `<a>`.
 * Nothing tracks nesting: the only repair made to the output is the one
 * `AppendEndTag` performs when an emphasis span is closed.
 */
module Transcoder {
  import opened Outcomes
  import opened PyStr
  import Newlines

  /** One attribute as the tokenizer reports it: a lower-cased name and its value. */
  datatype Attr = Attr(name: string, value: string)

  /** The tokenizer's callbacks, one constructor per handler of the processor. */
  datatype Event =
    | StartTag(tag: string, attrs: seq<Attr>)
    | EndTag(tag: string)
    | Data(text: string)
    | EntityRef(name: string)

  /** The pending link recorded by the last `<a>` start tag. */
  datatype Link = Link(href: string, title: string)

  /** The processor's state. `interpreter` is the Markdown dialect the code
      fences are written for (`None` is Python's `None`); `link` is absent until
      the first `<a>` is seen. */
  datatype Processor = Processor(
    interpreter: Option<string>,
    buffer: string,
    inPre: bool,
    link: Option<Link>)

  /** What the handlers raise: an unsupported dialect met at a `<pre lang=...>`,
      or an `</a>` when no `<a>` was ever seen (the attribute lookup of a link
      that does not exist). */
  datatype Error = UnknownInterpreter(name: string) | NoOpenLink

  /** A freshly constructed processor. */
  function New(interpreter: Option<string>): (p: Processor)
    ensures p.interpreter == interpreter && p.link.None?
    ensures p.buffer == "" && !p.inPre
  {
    Processor(interpreter, "", false, None)
  }

  /** `reset`: empties the buffer and leaves the `<pre>` block; the dialect and
      the pending link are kept. */
  function Reset(p: Processor): (q: Processor)
    ensures q.buffer == "" && !q.inPre
    ensures q.interpreter == p.interpreter && q.link == p.link
  {
    p.(buffer := "", inPre := false)
  }

  /** `readmd`: the buffer with every run of three or more newlines collapsed
      to two. */
  function ReadMd(p: Processor): (md: string)
    ensures Newlines.NoTriple(md)
    ensures Newlines.Visible(md) == Newlines.Visible(p.buffer)
    ensures Newlines.NoTriple(p.buffer) ==> md == p.buffer
  {
    Newlines.CollapseKeepsText(p.buffer);
    if Newlines.NoTriple(p.buffer) then Newlines.CollapseIdentity(p.buffer); Newlines.Collapse(p.buffer)
    else Newlines.Collapse(p.buffer)
  }

  /** `handle_data`: appends the text to the buffer. */
  function HandleData(p: Processor, text: string): (q: Processor)
    ensures q.buffer == p.buffer + text
    ensures q.interpreter == p.interpreter && q.inPre == p.inPre && q.link == p.link
  {
    p.(buffer := p.buffer + text)
  }

  /** The characters the `end_whitespace` pattern `[ \t\n]\Z` accepts. */
  const Blanks: string := " \t\n"

  /** What `end_whitespace.search(buf)` captures: the last character of `buf`
      when it is a space, tab or newline, otherwise nothing. */
  function TrailingBlank(buf: string): (w: string)
    ensures |w| <= 1
    ensures |w| == 1 <==> |buf| > 0 && buf[|buf| - 1] in Blanks
    ensures |w| == 1 ==> w[0] == buf[|buf| - 1]
  {
    if |buf| > 0 && buf[|buf| - 1] in Blanks then [buf[|buf| - 1]] else ""
  }

  /** `append_endtag(end)`: closes an emphasis span. The buffer loses its
      trailing whitespace; if it then already ends with `end` the span was
      empty and every trailing character that occurs in `end` is stripped
      (`rstrip(end)` strips a character set), otherwise `end` is appended; last,
      the single blank captured before trimming is put back. */
  function AppendEndTag(buf: string, end: string): string
  {
    var endWhite := TrailingBlank(buf);
    var trimmed := RStrip(buf);
    var closed := if EndsWith(trimmed, end) then RStripIn(trimmed, end) else trimmed + end;
    closed + endWhite
  }

  /** The close `append_endtag` evidently means: when the trimmed buffer ends
      with `end`, that one occurrence (the marker that opened the empty span)
      is removed, rather than every trailing character that occurs in `end`. */
  function AppendEndTagOnce(buf: string, end: string): string
  {
    var endWhite := TrailingBlank(buf);
    var trimmed := RStrip(buf);
    var closed := if EndsWith(trimmed, end) then trimmed[..|trimmed| - |end|] else trimmed + end;
    closed + endWhite
  }

  /** `handle_entityref`: inside `<pre>` the reference is copied literally;
      elsewhere `unescape` (the tokenizer library's entity decoder, a parameter
      here) decodes it. */
  function HandleEntityRef(unescape: string -> string, p: Processor, name: string): (q: Processor)
    ensures q.inPre == p.inPre && q.link == p.link && q.interpreter == p.interpreter
    ensures p.inPre ==> q.buffer == p.buffer + "&" + name + ";"
    ensures !p.inPre ==> q.buffer == p.buffer + unescape("&" + name + ";")
  {
    var entity := "&" + name + ";";
    if p.inPre then HandleData(p, entity) else HandleData(p, unescape(entity))
  }

  /** The attribute names a `<pre>` language is read from: `lang` in any case. */
  predicate IsLangAttr(a: Attr) {
    Lower(a.name) == "lang"
  }

  /** Index `i` holds the first `lang` attribute of `attrs`. */
  predicate FirstLang(attrs: seq<Attr>, i: int) {
    0 <= i < |attrs| && IsLangAttr(attrs[i])
    && forall j :: 0 <= j < i ==> !IsLangAttr(attrs[j])
  }

  /** The language of a `<pre>`: the lower-cased value of its first `lang`
      attribute, if any (the `for ... break ... else` loop). */
  function FindLang(attrs: seq<Attr>): (lang: Option<string>)
    ensures lang.None? <==> forall i :: 0 <= i < |attrs| ==> !IsLangAttr(attrs[i])
    ensures forall i :: FirstLang(attrs, i) ==> lang == Some(Lower(attrs[i].value))
    decreases |attrs|
  {
    if |attrs| == 0 then None
    else if IsLangAttr(attrs[0]) then Some(Lower(attrs[0].value))
    else
      var rest := FindLang(attrs[1..]);
      assert forall i :: FirstLang(attrs, i) ==> i > 0 && FirstLang(attrs[1..], i - 1);
      rest
  }

  /** `attrs` has no attribute called `name`. */
  predicate NoAttr(attrs: seq<Attr>, name: string) {
    forall i :: 0 <= i < |attrs| ==> attrs[i].name != name
  }

  /** Index `i` holds the last attribute of `attrs` called `name`. */
  predicate LastAttr(attrs: seq<Attr>, i: int, name: string) {
    0 <= i < |attrs| && attrs[i].name == name
    && forall j :: i < j < |attrs| ==> attrs[j].name != name
  }

  /** The loop over the attributes of an `<a>`: each `href` or `title` overwrites
      the value recorded so far, so the last occurrence of each wins. */
  function LinkFold(link: Link, attrs: seq<Attr>): (r: Link)
    ensures NoAttr(attrs, "href") ==> r.href == link.href
    ensures NoAttr(attrs, "title") ==> r.title == link.title
    ensures forall i :: LastAttr(attrs, i, "href") ==> r.href == attrs[i].value
    ensures forall i :: LastAttr(attrs, i, "title") ==> r.title == attrs[i].value
    decreases |attrs|
  {
    if |attrs| == 0 then link
    else
      var a := attrs[0];
      var next :=
        if a.name == "href" then link.(href := a.value)
        else if a.name == "title" then link.(title := a.value)
        else link;
      var rest := attrs[1..];
      assert forall i, n :: LastAttr(attrs, i, n) && i > 0 ==> LastAttr(rest, i - 1, n);
      assert forall n :: NoAttr(attrs, n) ==> NoAttr(rest, n);
      assert forall n :: LastAttr(attrs, 0, n) ==> NoAttr(rest, n);
      LinkFold(next, rest)
  }

  /** The link an `<a>` start tag records: both fields start out empty. */
  function LinkOf(attrs: seq<Attr>): Link {
    LinkFold(Link("", ""), attrs)
  }

  /** What an `</a>` appends: the link target, with the title in quotes when
      the title is not empty, and a trailing space. */
  function LinkClose(link: Link): string {
    if link.title != "" then "](" + link.href + " \"" + link.title + "\") "
    else "](" + link.href + ") "
  }

  /** One attribute written back as HTML: `name="value"`. */
  function AttrText(a: Attr): (s: string)
    ensures |s| > 0
  {
    a.name + "=\"" + a.value + "\""
  }

  /** The attributes written back, separated by single spaces. */
  function AttrsText(attrs: seq<Attr>): (s: string)
    ensures s == "" <==> |attrs| == 0
    decreases |attrs|
  {
    if |attrs| == 0 then ""
    else if |attrs| == 1 then AttrText(attrs[0])
    else AttrText(attrs[0]) + " " + AttrsText(attrs[1..])
  }

  /** A start tag the converter does not know, written back as HTML. */
  function PassthroughStart(tag: string, attrs: seq<Attr>): string {
    var atts := AttrsText(attrs);
    if atts != "" then "<" + tag + " " + atts + ">" else "<" + tag + ">"
  }

  /** A known dialect: misaka (or `None`, which behaves like it) and markdown. */
  predicate KnownInterpreter(interpreter: Option<string>) {
    interpreter in {None, Some("misaka"), Some("markdown")}
  }

  /** The opening fence of a `<pre>`, which depends on the dialect only when
      the block names a language. */
  function OpenFence(interpreter: Option<string>, lang: Option<string>): Result<string, Error> {
    match lang
    case None => Ok("\n~~~\n")
    case Some(l) =>
      if interpreter == Some("misaka") || interpreter.None? then Ok("\n~~~ { " + l + " }\n")
      else if interpreter == Some("markdown") then Ok("\n~~~\n:::" + l + "\n")
      else Err(UnknownInterpreter(interpreter.value))
  }

  /** `handle_starttag`. */
  function HandleStartTag(p: Processor, tag: string, attrs: seq<Attr>): Result<Processor, Error> {
    if tag == "pre" then
      match OpenFence(p.interpreter, FindLang(attrs))
      case Ok(fence) => Ok(HandleData(p.(inPre := true), fence))
      case Err(e) => Err(e)
    else if tag == "code" then Ok(HandleData(p, "`"))
    else if tag == "p" then Ok(HandleData(p, "\n"))
    else if tag == "a" then Ok(HandleData(p.(link := Some(LinkOf(attrs))), "["))
    else if tag == "em" || tag == "i" then Ok(HandleData(p, "_"))
    else if tag == "strong" || tag == "b" then Ok(HandleData(p, "**"))
    else Ok(HandleData(p, PassthroughStart(tag, attrs)))
  }

  /** `handle_endtag`. */
  function HandleEndTag(p: Processor, tag: string): Result<Processor, Error> {
    if tag == "pre" then Ok(HandleData(p.(inPre := false), "\n~~~\n"))
    else if tag == "code" then Ok(HandleData(p, "`"))
    else if tag == "a" then
      match p.link
      case Some(link) => Ok(HandleData(p, LinkClose(link)))
      case None => Err(NoOpenLink)
    else if tag == "p" then Ok(HandleData(p, "\n"))
    else if tag == "em" || tag == "i" then Ok(p.(buffer := AppendEndTag(p.buffer, "_")))
    else if tag == "strong" || tag == "b" then Ok(p.(buffer := AppendEndTag(p.buffer, "**")))
    else Ok(HandleData(p, "</" + tag + ">"))
  }

  /** One tokenizer callback. */
  function Step(unescape: string -> string, p: Processor, e: Event): (r: Result<Processor, Error>)
    ensures r.Ok? ==> r.value.interpreter == p.interpreter
  {
    match e
    case StartTag(tag, attrs) => HandleStartTag(p, tag, attrs)
    case EndTag(tag) => HandleEndTag(p, tag)
    case Data(text) => Ok(HandleData(p, text))
    case EntityRef(name) => Ok(HandleEntityRef(unescape, p, name))
  }

  /** `feed`: the callbacks in order; the first one that raises ends the feed. */
  function Run(unescape: string -> string, p: Processor, events: seq<Event>): (r: Result<Processor, Error>)
    ensures r.Ok? ==> r.value.interpreter == p.interpreter
    decreases |events|
  {
    if |events| == 0 then Ok(p)
    else
      match Step(unescape, p, events[0])
      case Ok(q) => Run(unescape, q, events[1..])
      case Err(e) => Err(e)
  }

  /** The Markdown of one post, and the processor as it is left for the next. */
  datatype Converted = Converted(markdown: string, processor: Processor)

  /** `_markdownify`: reset, feed, read. The processor is shared by all posts
      of an export, so the state left behind is returned with the Markdown. */
  function Markdownify(unescape: string -> string, p: Processor, events: seq<Event>): Result<Converted, Error> {
    match Run(unescape, Reset(p), events)
    case Ok(q) => Ok(Converted(ReadMd(q), q))
    case Err(e) => Err(e)
  }

  /** `_markdownify` with a reset that also forgets the pending link: every
      post is converted as by a freshly constructed processor. */
  function MarkdownifyFresh(unescape: string -> string, p: Processor, events: seq<Event>): (r: Result<Converted, Error>)
    ensures r.Ok? <==> Convert(unescape, p.interpreter, events).Ok?
    ensures r.Ok? ==> r.value.markdown == Convert(unescape, p.interpreter, events).value
  {
    Markdownify(unescape, New(p.interpreter), events)
  }

  /** One conversion by a freshly constructed processor. */
  function Convert(unescape: string -> string, interpreter: Option<string>, events: seq<Event>): Result<string, Error> {
    match Run(unescape, New(interpreter), events)
    case Ok(q) => Ok(ReadMd(q))
    case Err(e) => Err(e)
  }
}

=== FILE: transcoder_examples.dfy ===
/**
 * Conversions of small fragments worked out in full: what a WordPress author
 * writes, and the Markdown the converter produces for it.
 */
module TranscoderExamples {
  import opened Outcomes
  import opened PyStr
  import opened Transcoder
  import opened TranscoderFacts
  import Newlines

  /** A processor for the markdown dialect with no link recorded, outside any
      code block, holding `buf`. */
  function At(buf: string): Processor {
    Processor(Some("markdown"), buf, false, None)
  }

  lemma CloseWorld()
    ensures AppendEndTag("\nHello **world", "**") == "\nHello **world**"
  {
    RStripInDrops("\nHello **world", "", Whitespace);
    assert "\nHello **world" + "" == "\nHello **world";
  }

  /** The second half of the feed: `world</strong>!</p>`. */
  lemma HelloWorldTail(u: string -> string)
    ensures Run(u, At("\nHello **"), [Data("world"), EndTag("strong"), Data("!"), EndTag("p")])
      == Ok(At("\nHello **world**!\n"))
  {
    var e6 := [EndTag("p")];
    var e5 := [Data("!")] + e6;
    var e4 := [EndTag("strong")] + e5;
    var e3 := [Data("world")] + e4;
    var done := At("\nHello **world**!\n");
    assert Run(u, At("\nHello **world**!"), e6) == Ok(done) by {
      assert "\nHello **world**!" + "\n" == "\nHello **world**!\n";
      RunCons(u, At("\nHello **world**!"), EndTag("p"), [], done);
    }
    assert Run(u, At("\nHello **world**"), e5) == Ok(done) by {
      assert "\nHello **world**" + "!" == "\nHello **world**!";
      RunCons(u, At("\nHello **world**"), Data("!"), e6, At("\nHello **world**!"));
    }
    assert Run(u, At("\nHello **world"), e4) == Ok(done) by {
      CloseWorld();
      RunCons(u, At("\nHello **world"), EndTag("strong"), e5, At("\nHello **world**"));
    }
    assert Run(u, At("\nHello **"), e3) == Ok(done) by {
      assert "\nHello **" + "world" == "\nHello **world";
      RunCons(u, At("\nHello **"), Data("world"), e4, At("\nHello **world"));
    }
    assert e3 == [Data("world"), EndTag("strong"), Data("!"), EndTag("p")];
  }

  lemma HelloWorldHasNoTriple()
    ensures Newlines.NoTriple("\nHello **world**!\n")
  {
  }

  lemma OpenStrong(u: string -> string)
    ensures Step(u, At("\nHello "), StartTag("strong", [])) == Ok(At("\nHello **"))
  {
    assert "\nHello " + "**" == "\nHello **";
  }

  lemma HelloText(u: string -> string)
    ensures Step(u, At("\n"), Data("Hello ")) == Ok(At("\nHello "))
  {
    assert "\n" + "Hello " == "\nHello ";
  }

  lemma OpenParagraph(u: string -> string)
    ensures Step(u, At(""), StartTag("p", [])) == Ok(At("\n"))
  {
    assert "" + "\n" == "\n";
  }

  /** The whole feed of `<p>Hello <strong>world</strong>!</p>`. */
  lemma HelloWorldFeed(u: string -> string)
    ensures Run(u, At(""), [
      StartTag("p", []), Data("Hello "), StartTag("strong", []), Data("world"),
      EndTag("strong"), Data("!"), EndTag("p")])
      == Ok(At("\nHello **world**!\n"))
  {
    var e3 := [Data("world"), EndTag("strong"), Data("!"), EndTag("p")];
    var e2 := [StartTag("strong", [])] + e3;
    var e1 := [Data("Hello ")] + e2;
    HelloWorldTail(u);
    OpenStrong(u);
    RunCons(u, At("\nHello "), StartTag("strong", []), e3, At("\nHello **"));
    HelloText(u);
    RunCons(u, At("\n"), Data("Hello "), e2, At("\nHello "));
    OpenParagraph(u);
    RunCons(u, At(""), StartTag("p", []), e1, At("\n"));
    assert [StartTag("p", [])] + e1 == [StartTag("p", []), Data("Hello "), StartTag("strong", []), Data("world"),
      EndTag("strong"), Data("!"), EndTag("p")];
  }

  /** `<p>Hello <strong>world</strong>!</p>` */
  lemma HelloWorld(u: string -> string)
    ensures Convert(u, Some("markdown"), [
      StartTag("p", []), Data("Hello "), StartTag("strong", []), Data("world"),
      EndTag("strong"), Data("!"), EndTag("p")])
      == Ok("\nHello **world**!\n")
  {
    HelloWorldFeed(u);
    HelloWorldHasNoTriple();
    assert New(Some("markdown")) == At("");
  }

  // ---------------------------------------------------------------------------
  // The repair close strips a character set

  /** `rstrip("_")` takes the closing marker of the span before with it. */
  lemma CloseStripsTooMuch()
    ensures AppendEndTag("_x__", "_") == "_x"
  {
    assert "_x_" + "_" + "" == "_x__";
    RepairCloseEmptySpan("_x_", "", "_");
    RStripInDrops("_x", "_", "_");
    assert "_x" + "_" == "_x_";
    assert "_x" + "" == "_x";
  }

  /** The corrected close removes only the marker of the empty span. */
  lemma CloseOnceKeepsMarker()
    ensures AppendEndTagOnce("_x__", "_") == "_x_"
  {
    assert "_x_" + "_" + "" == "_x__";
    RepairCloseOnceEmptySpan("_x_", "", "_");
    assert "_x_" + "" == "_x_";
  }

  /** The same with strong emphasis: `rstrip("**")` strips every trailing `*`. */
  lemma StrongCloseStripsTooMuch()
    ensures AppendEndTag("**x****", "**") == "**x"
  {
    assert "**x**" + "**" + "" == "**x****";
    RepairCloseEmptySpan("**x**", "", "**");
    RStripInDrops("**x", "**", "**");
    assert "**x" + "**" == "**x**";
    assert "**x" + "" == "**x";
  }

  lemma StrongCloseOnceKeepsMarker()
    ensures AppendEndTagOnce("**x****", "**") == "**x**"
  {
    assert "**x**" + "**" + "" == "**x****";
    RepairCloseOnceEmptySpan("**x**", "", "**");
    assert "**x**" + "" == "**x**";
  }

  /** `<em>x</em><em></em>` for any visible text x not ending in `_` leaves
      `_x`: the empty span removes the closing marker of the span before it,
      so the emphasis is never closed. */
  lemma EmptySpanAfterSpan(u: string -> string, p: Processor, x: string)
    requires |x| > 0 && !IsSpace(x[|x| - 1]) && x[|x| - 1] != '_'
    ensures Run(u, p, [StartTag("em", []), Data(x), EndTag("em"), StartTag("em", []), Data(""), EndTag("em")])
      == Ok(p.(buffer := p.buffer + "_" + x))
  {
    var first := [StartTag("em", []), Data(x), EndTag("em")];
    var second := [StartTag("em", []), Data(""), EndTag("em")];
    var open := p.buffer + "_" + x;
    assert x + "" == x;
    assert open[|open| - 1] == x[|x| - 1];
    EmphasisSpan(u, p, "em", x, "");
    var q := p.(buffer := open + "_" + "");
    EmptyEmphasisDropped(u, q, "em", "");
    assert open + "_" + "" == open + "_";
    RStripInDrops(open, "_", "_");
    assert open + "" == open;
    RunConcat(u, p, first, second);
    assert first + second == [StartTag("em", []), Data(x), EndTag("em"), StartTag("em", []), Data(""), EndTag("em")];
  }

  // ---------------------------------------------------------------------------
  // The link outlives `reset`

  /** A post that is text and then a stray `</a>`: after `reset` it is given
      whatever link an earlier post recorded, and raises only when none did. */
  lemma StrayEndAnchor(u: string -> string, p: Processor, y: string)
    ensures p.link.Some? ==>
      Run(u, Reset(p), [Data(y), EndTag("a")]) == Ok(Reset(p).(buffer := y + LinkClose(p.link.value)))
    ensures p.link.None? ==> Run(u, Reset(p), [Data(y), EndTag("a")]) == Err(NoOpenLink)
  {
    var q0 := HandleData(Reset(p), y);
    assert "" + y == y;
    assert Step(u, Reset(p), Data(y)) == Ok(q0);
    RunCons(u, Reset(p), Data(y), [EndTag("a")], q0);
    assert [Data(y)] + [EndTag("a")] == [Data(y), EndTag("a")];
    if p.link.Some? {
      RunCons(u, q0, EndTag("a"), [], HandleData(q0, LinkClose(p.link.value)));
    }
  }

  /** A post with a link, then a post with a stray `</a>`: as written the
      second post is given the first post's link target, although on a fresh
      processor (and with the corrected reset) it raises. */
  lemma StaleLinkLeaksAcrossPosts(u: string -> string, d: Option<string>, attrs: seq<Attr>, x: string, y: string)
    ensures var first := Markdownify(u, New(d), [StartTag("a", attrs), Data(x), EndTag("a")]);
      && first.Ok?
      && first.value.processor.link == Some(LinkOf(attrs))
      && Run(u, Reset(first.value.processor), [Data(y), EndTag("a")]).Ok?
      && Run(u, Reset(first.value.processor), [Data(y), EndTag("a")]).value.buffer == y + LinkClose(LinkOf(attrs))
      && Markdownify(u, New(d), [Data(y), EndTag("a")]) == Err(NoOpenLink)
      && MarkdownifyFresh(u, first.value.processor, [Data(y), EndTag("a")]) == Err(NoOpenLink)
  {
    LinkSpan(u, Reset(New(d)), attrs, x);
    var first := Markdownify(u, New(d), [StartTag("a", attrs), Data(x), EndTag("a")]);
    StrayEndAnchor(u, first.value.processor, y);
    StrayEndAnchor(u, New(d), y);
    assert Reset(New(d)) == New(d);
  }
}

=== FILE: transcoder_facts.dfy ===
/**
 * What the transcoder promises: the dispatch table of its handlers, the
 * append-only discipline of everything but the emphasis repair, the code-fence
 * flag, links, entities, the repair close, the errors it can raise, and a few
 * conversions worked end to end.
 */
module TranscoderFacts {
  import opened Outcomes
  import opened PyStr
  import opened Transcoder
  import Newlines

  // ---------------------------------------------------------------------------
  // Feeding in pieces

  /** Feeding `a + b` is feeding `a`, then feeding `b` to what `a` left. */
  lemma {:induction false} RunConcat(u: string -> string, p: Processor, a: seq<Event>, b: seq<Event>)
    ensures Run(u, p, a + b) ==
      match Run(u, p, a)
      case Ok(q) => Run(u, q, b)
      case Err(e) => Err(e)
    decreases |a|
  {
    if |a| == 0 {
      assert a + b == b;
    } else {
      assert (a + b)[0] == a[0];
      assert (a + b)[1..] == a[1..] + b;
      match Step(u, p, a[0])
      case Ok(q) => RunConcat(u, q, a[1..], b);
      case Err(_) =>
    }
  }

  /** Feeding an event that succeeds, then the rest. */
  lemma RunCons(u: string -> string, p: Processor, e: Event, rest: seq<Event>, q: Processor)
    requires Step(u, p, e) == Ok(q)
    ensures Run(u, p, [e] + rest) == Run(u, q, rest)
  {
    assert ([e] + rest)[0] == e;
    assert ([e] + rest)[1..] == rest;
  }

  // ---------------------------------------------------------------------------
  // Append-only events

  /** The only events that may rewrite the buffer: closing an emphasis span. */
  predicate IsRepairClose(e: Event) {
    e.EndTag? && e.tag in {"em", "i", "strong", "b"}
  }

  /** Every other event keeps what is already in the buffer. */
  lemma StepAppendOnly(u: string -> string, p: Processor, e: Event)
    requires !IsRepairClose(e)
    ensures Step(u, p, e).Ok? ==> p.buffer <= Step(u, p, e).value.buffer
  {
  }

  /** A feed without emphasis closes only ever extends the buffer. */
  lemma {:induction false} RunAppendOnly(u: string -> string, p: Processor, events: seq<Event>)
    requires forall i :: 0 <= i < |events| ==> !IsRepairClose(events[i])
    ensures Run(u, p, events).Ok? ==> p.buffer <= Run(u, p, events).value.buffer
    decreases |events|
  {
    if |events| > 0 {
      StepAppendOnly(u, p, events[0]);
      match Step(u, p, events[0])
      case Ok(q) => RunAppendOnly(u, q, events[1..]);
      case Err(_) =>
    }
  }

  /** Text appends itself and changes nothing else. */
  lemma DataAppends(u: string -> string, p: Processor, text: string)
    ensures Step(u, p, Data(text)) == Ok(p.(buffer := p.buffer + text))
  {
  }

  /** The markup tags with a fixed translation: paragraphs and code spans on
      both ends, emphasis and strong emphasis when they open. */
  lemma MarkupAppends(u: string -> string, p: Processor, tag: string, attrs: seq<Attr>)
    ensures tag == "p" ==>
      Step(u, p, StartTag(tag, attrs)) == Ok(p.(buffer := p.buffer + "\n"))
      && Step(u, p, EndTag(tag)) == Ok(p.(buffer := p.buffer + "\n"))
    ensures tag == "code" ==>
      Step(u, p, StartTag(tag, attrs)) == Ok(p.(buffer := p.buffer + "`"))
      && Step(u, p, EndTag(tag)) == Ok(p.(buffer := p.buffer + "`"))
    ensures tag in {"em", "i"} ==> Step(u, p, StartTag(tag, attrs)) == Ok(p.(buffer := p.buffer + "_"))
    ensures tag in {"strong", "b"} ==> Step(u, p, StartTag(tag, attrs)) == Ok(p.(buffer := p.buffer + "**"))
  {
  }

  /** The tags the converter translates; every other tag passes through. */
  const KnownTags: set<string> := {"pre", "code", "p", "a", "em", "i", "strong", "b"}

  /** A tag the converter does not know is written back as HTML: `<tag>` when
      it has no attributes, otherwise its `name="value"` pairs joined by
      spaces; an unknown end tag becomes `</tag>`. */
  lemma PassThrough(u: string -> string, p: Processor, tag: string, attrs: seq<Attr>)
    requires tag !in KnownTags
    ensures |attrs| == 0 ==> Step(u, p, StartTag(tag, attrs)) == Ok(HandleData(p, "<" + tag + ">"))
    ensures |attrs| > 0 ==>
      Step(u, p, StartTag(tag, attrs)) == Ok(HandleData(p, "<" + tag + " " + Join(" ", AttrTexts(attrs)) + ">"))
    ensures Step(u, p, EndTag(tag)) == Ok(HandleData(p, "</" + tag + ">"))
  {
    assert tag != "pre" && tag != "code" && tag != "p" && tag != "a";
    assert tag != "em" && tag != "i" && tag != "strong" && tag != "b";
    AttrsTextIsJoin(attrs);
    assert HandleStartTag(p, tag, attrs) == Ok(HandleData(p, PassthroughStart(tag, attrs)));
  }

  /** Each attribute written as `name="value"`. */
  function AttrTexts(attrs: seq<Attr>): (texts: seq<string>)
    ensures |texts| == |attrs|
    ensures forall i :: 0 <= i < |attrs| ==> texts[i] == AttrText(attrs[i])
  {
    seq(|attrs|, i requires 0 <= i < |attrs| => AttrText(attrs[i]))
  }

  /** The attribute text is the space-join of the attributes. */
  lemma {:induction false} AttrsTextIsJoin(attrs: seq<Attr>)
    ensures AttrsText(attrs) == Join(" ", AttrTexts(attrs))
    decreases |attrs|
  {
    if |attrs| > 1 {
      AttrsTextIsJoin(attrs[1..]);
      assert AttrTexts(attrs)[1..] == AttrTexts(attrs[1..]);
    }
  }

  // ---------------------------------------------------------------------------
  // The code-fence flag

  /** What an event does to the `<pre>` flag: sets it, clears it, or nothing. */
  function FenceOf(e: Event): Option<bool> {
    if e == EndTag("pre") then Some(false)
    else if e.StartTag? && e.tag == "pre" then Some(true)
    else None
  }

  /** The effect of the last `<pre>` or `</pre>` among `events`, if any. */
  function LastFence(events: seq<Event>): Option<bool>
    decreases |events|
  {
    if |events| == 0 then None
    else
      match LastFence(events[1..])
      case Some(b) => Some(b)
      case None => FenceOf(events[0])
  }

  /** After a feed the processor is inside a code block exactly when the last
      `<pre>`/`</pre>` was an opening one (or, with none, when it was before). */
  lemma {:induction false} InPreFollowsLastFence(u: string -> string, p: Processor, events: seq<Event>)
    ensures Run(u, p, events).Ok? ==> Run(u, p, events).value.inPre == LastFence(events).GetOr(p.inPre)
    decreases |events|
  {
    if |events| > 0 {
      match Step(u, p, events[0])
      case Ok(q) =>
        assert q.inPre == FenceOf(events[0]).GetOr(p.inPre);
        InPreFollowsLastFence(u, q, events[1..]);
      case Err(_) =>
    }
  }

  /** An entity reference is written literally inside an open `<pre>` and
      decoded outside one; it never moves the flag. */
  lemma EntityAfterFeed(u: string -> string, p: Processor, events: seq<Event>, name: string)
    requires Run(u, p, events).Ok?
    ensures var q := Run(u, p, events).value;
      && (LastFence(events) == Some(true) ==>
          Run(u, p, events + [EntityRef(name)]) == Ok(q.(buffer := q.buffer + "&" + name + ";")))
      && (LastFence(events) == Some(false) ==>
          Run(u, p, events + [EntityRef(name)]) == Ok(q.(buffer := q.buffer + u("&" + name + ";"))))
  {
    RunConcat(u, p, events, [EntityRef(name)]);
    InPreFollowsLastFence(u, p, events);
  }

  // ---------------------------------------------------------------------------
  // Code fences

  /** `<pre>` without a `lang` attribute opens a bare fence, whatever the
      dialect, even an unknown one. `</pre>` closes the fence. */
  lemma PreWithoutLang(u: string -> string, p: Processor, attrs: seq<Attr>)
    requires forall j :: 0 <= j < |attrs| ==> !IsLangAttr(attrs[j])
    ensures Step(u, p, StartTag("pre", attrs)) == Ok(HandleData(p.(inPre := true), "\n~~~\n"))
    ensures Step(u, p, EndTag("pre")) == Ok(HandleData(p.(inPre := false), "\n~~~\n"))
  {
  }

  /** `<pre>` with a `lang` attribute: the first one (its name in any case)
      decides, lower-cased; misaka (and `None`) write `~~~ { lang }`, markdown
      writes `~~~` and a `:::lang` line; any other dialect raises, and only
      here. */
  lemma PreWithLang(u: string -> string, p: Processor, attrs: seq<Attr>, i: int)
    requires FirstLang(attrs, i)
    ensures p.interpreter in {None, Some("misaka")} ==>
      Step(u, p, StartTag("pre", attrs))
      == Ok(HandleData(p.(inPre := true), "\n~~~ { " + Lower(attrs[i].value) + " }\n"))
    ensures p.interpreter == Some("markdown") ==>
      Step(u, p, StartTag("pre", attrs))
      == Ok(HandleData(p.(inPre := true), "\n~~~\n:::" + Lower(attrs[i].value) + "\n"))
    ensures !KnownInterpreter(p.interpreter) ==>
      Step(u, p, StartTag("pre", attrs)) == Err(UnknownInterpreter(p.interpreter.value))
  {
    assert FindLang(attrs) == Some(Lower(attrs[i].value));
  }

  // ---------------------------------------------------------------------------
  // Links

  /** `<a ...>text</a>` becomes `[text](href "title") `, or `[text](href) `
      when the title is empty; href and title are the last such attributes of
      the tag, or empty. The link stays recorded afterwards. */
  lemma LinkSpan(u: string -> string, p: Processor, attrs: seq<Attr>, text: string)
    ensures var link := LinkOf(attrs);
      Run(u, p, [StartTag("a", attrs), Data(text), EndTag("a")])
      == Ok(HandleData(HandleData(HandleData(p.(link := Some(link)), "["), text), LinkClose(link)))
    ensures NoAttr(attrs, "href") ==> LinkOf(attrs).href == ""
    ensures NoAttr(attrs, "title") ==> LinkOf(attrs).title == ""
  {
    var link := LinkOf(attrs);
    var q0 := HandleData(p.(link := Some(link)), "[");
    var q1 := HandleData(q0, text);
    var evs := [StartTag("a", attrs), Data(text), EndTag("a")];
    assert Step(u, p, evs[0]) == Ok(q0);
    assert Step(u, q0, evs[1]) == Ok(q1);
    assert Step(u, q1, evs[2]) == Ok(HandleData(q1, LinkClose(link)));
    assert evs[1..][1..] == [EndTag("a")];
    assert Run(u, q1, [EndTag("a")]) == Ok(HandleData(q1, LinkClose(link)));
  }

  /** `</a>` raises exactly when no `<a>` was ever recorded; otherwise it uses
      whatever link was recorded last, however long ago. */
  lemma EndAnchor(u: string -> string, p: Processor)
    ensures Step(u, p, EndTag("a")).Err? <==> p.link.None?
    ensures p.link.Some? ==> Step(u, p, EndTag("a")) == Ok(p.(buffer := p.buffer + LinkClose(p.link.value)))
  {
  }

  // ---------------------------------------------------------------------------
  // When a feed raises

  predicate IsLangPre(e: Event) {
    e.StartTag? && e.tag == "pre" && FindLang(e.attrs).Some?
  }

  predicate IsStartAnchor(e: Event) {
    e.StartTag? && e.tag == "a"
  }

  /** Event `i` raises when fed to a processor that started as `p`: a
      `<pre lang=...>` under an unknown dialect, or an `</a>` with no link
      recorded before it. */
  predicate FailsAt(p: Processor, events: seq<Event>, i: int)
    requires 0 <= i < |events|
  {
    || (IsLangPre(events[i]) && !KnownInterpreter(p.interpreter))
    || (events[i] == EndTag("a") && p.link.None?
        && forall j :: 0 <= j < i ==> !IsStartAnchor(events[j]))
  }

  /** A single event raises exactly in the two situations of `FailsAt`; when
      it does not, a link is recorded afterwards if one was before or the
      event is an `<a>`. */
  lemma StepErrIff(u: string -> string, p: Processor, e: Event)
    ensures Step(u, p, e).Err? <==>
      (IsLangPre(e) && !KnownInterpreter(p.interpreter)) || (e == EndTag("a") && p.link.None?)
    ensures Step(u, p, e).Ok? ==>
      (Step(u, p, e).value.link.Some? <==> p.link.Some? || IsStartAnchor(e))
  {
  }

  /** A feed succeeds exactly when no event in it raises. */
  lemma {:induction false} RunOkIff(u: string -> string, p: Processor, events: seq<Event>)
    ensures Run(u, p, events).Ok? <==> forall i :: 0 <= i < |events| ==> !FailsAt(p, events, i)
    decreases |events|
  {
    if |events| > 0 {
      var e := events[0];
      var rest := events[1..];
      StepErrIff(u, p, e);
      match Step(u, p, e)
      case Ok(q) =>
        RunOkIff(u, q, rest);
        assert !FailsAt(p, events, 0);
        forall i | 1 <= i < |events|
          ensures FailsAt(p, events, i) <==> FailsAt(q, rest, i - 1)
        {
          assert events[i] == rest[i - 1];
          if !IsStartAnchor(e) {
            assert (forall j :: 0 <= j < i ==> !IsStartAnchor(events[j]))
              <==> (forall j :: 0 <= j < i - 1 ==> !IsStartAnchor(rest[j])) by {
              if forall j :: 0 <= j < i - 1 ==> !IsStartAnchor(rest[j]) {
                forall j | 0 <= j < i
                  ensures !IsStartAnchor(events[j])
                {
                  if j > 0 {
                    assert events[j] == rest[j - 1];
                  }
                }
              }
            }
          }
        }
        if Run(u, q, rest).Ok? {
          forall i | 0 <= i < |events|
            ensures !FailsAt(p, events, i)
          {
            if i > 0 {
              assert !FailsAt(q, rest, i - 1);
            }
          }
        } else {
          var k :| 0 <= k < |rest| && FailsAt(q, rest, k);
          assert FailsAt(p, events, k + 1);
        }
      case Err(_) =>
        assert FailsAt(p, events, 0);
    }
  }

  // ---------------------------------------------------------------------------
  // Text, paragraphs and unknown tags

  /** The tags that write Markdown other than a newline, or touch the code
      block flag or the link. */
  const Formatting: set<string> := {"pre", "code", "a", "em", "i", "strong", "b"}

  /** An event that passes through: text, an entity reference, or a tag that
      is not a formatting tag. */
  predicate IsPlain(e: Event) {
    match e
    case StartTag(tag, _) => tag !in Formatting
    case EndTag(tag) => tag !in Formatting
    case _ => true
  }

  /** What a plain event writes outside a code block: text as it is, entities
      decoded, `<p>` and `</p>` as a newline, and any other tag as HTML. */
  function PlainOut(u: string -> string, e: Event): string {
    match e
    case Data(s) => s
    case EntityRef(n) => u("&" + n + ";")
    case StartTag(tag, attrs) => if tag == "p" then "\n" else PassthroughStart(tag, attrs)
    case EndTag(tag) => if tag == "p" then "\n" else "</" + tag + ">"
  }

  /** The output of a sequence of plain events, one after the other. */
  function PlainText(u: string -> string, events: seq<Event>): string
    decreases |events|
  {
    if |events| == 0 then "" else PlainOut(u, events[0]) + PlainText(u, events[1..])
  }

  /** One plain event appends its output and changes nothing else. */
  lemma PlainStep(u: string -> string, p: Processor, e: Event)
    requires !p.inPre && IsPlain(e)
    ensures Step(u, p, e) == Ok(HandleData(p, PlainOut(u, e)))
  {
    match e
    case StartTag(tag, attrs) =>
      assert tag != "pre" && tag != "code" && tag != "a";
      assert tag != "em" && tag != "i" && tag != "strong" && tag != "b";
    case EndTag(tag) =>
      assert tag != "pre" && tag != "code" && tag != "a";
      assert tag != "em" && tag != "i" && tag != "strong" && tag != "b";
    case _ =>
  }

  /** Outside a code block, a feed without formatting tags never raises and
      writes the text with its entities decoded, paragraphs as newlines and
      every other tag as HTML. */
  lemma {:induction false} TextPassesThrough(u: string -> string, p: Processor, events: seq<Event>)
    requires !p.inPre
    requires forall i :: 0 <= i < |events| ==> IsPlain(events[i])
    ensures Run(u, p, events) == Ok(p.(buffer := p.buffer + PlainText(u, events)))
    decreases |events|
  {
    if |events| > 0 {
      var head := PlainOut(u, events[0]);
      var q := HandleData(p, head);
      PlainStep(u, p, events[0]);
      TextPassesThrough(u, q, events[1..]);
      assert PlainText(u, events) == head + PlainText(u, events[1..]);
      assert q.buffer + PlainText(u, events[1..]) == p.buffer + PlainText(u, events);
    } else {
      assert p.buffer + "" == p.buffer;
    }
  }

  // ---------------------------------------------------------------------------
  // The output normaliser

  /** `readmd` turns each maximal run of three or more newlines into exactly
      two and keeps shorter runs; the text around the run is normalised on its
      own. */
  lemma ReadMdCollapsesRun(p: Processor, a: string, k: nat, b: string)
    requires p.buffer == a + Newlines.NewlineRun(k) + b
    requires |a| == 0 || a[|a| - 1] != '\n'
    requires |b| == 0 || b[0] != '\n'
    ensures ReadMd(p) == ReadMd(p.(buffer := a)) + (if k >= 3 then "\n\n" else Newlines.NewlineRun(k)) + ReadMd(p.(buffer := b))
  {
    Newlines.CollapseRunBetween(a, k, b);
  }

  // ---------------------------------------------------------------------------
  // The repair close

  /** The marker an emphasis tag writes: `_` for em/i, `**` for strong/b. */
  function Marker(tag: string): string
    requires tag in {"em", "i", "strong", "b"}
  {
    if tag in {"em", "i"} then "_" else "**"
  }

  /** `TrailingBlank` of a string that ends in whitespace `ws` appended to a
      string that does not end in a blank is the blank at the end of `ws`. */
  lemma TrailingBlankOfTail(b: string, ws: string)
    requires |b| == 0 || b[|b| - 1] !in Blanks
    ensures TrailingBlank(b + ws) == TrailingBlank(ws)
  {
    if |ws| == 0 {
      assert b + ws == b;
    } else {
      assert (b + ws)[|b + ws| - 1] == ws[|ws| - 1];
    }
  }

  /** Closing a span with text in it: the marker goes right after the last
      visible character, and of the whitespace that followed it only the
      final space, tab or newline is kept (a carriage return, vertical tab or
      form feed is dropped altogether). */
  lemma RepairCloseNormal(b: string, ws: string, end: string)
    requires |b| == 0 || !IsSpace(b[|b| - 1])
    requires AllSpace(ws)
    requires !EndsWith(b, end)
    ensures AppendEndTag(b + ws, end) == b + end + TrailingBlank(ws)
  {
    RStripInDrops(b, ws, Whitespace);
    TrailingBlankOfTail(b, ws);
  }

  /** Closing an empty (or whitespace-only) span: the opening marker goes, and
      with it every marker character in front of it; no closing marker is
      written. */
  lemma RepairCloseEmptySpan(b: string, ws: string, end: string)
    requires |end| > 0 && !IsSpace(end[|end| - 1])
    requires AllSpace(ws)
    ensures AppendEndTag(b + end + ws, end) == RStripIn(b, end) + TrailingBlank(ws)
  {
    RStripInDrops(b + end, ws, Whitespace);
    assert forall i :: 0 <= i < |end| ==> end[i] in end;
    RStripInAbsorbs(b, end, end);
    TrailingBlankOfTail(b + end, ws);
  }

  /** An emphasis span around one piece of text: open marker, text, and the
      repair close of the result. */
  lemma EmphasisRun(u: string -> string, p: Processor, tag: string, text: string)
    requires tag in {"em", "i", "strong", "b"}
    ensures Run(u, p, [StartTag(tag, []), Data(text), EndTag(tag)])
      == Ok(p.(buffer := AppendEndTag(p.buffer + Marker(tag) + text, Marker(tag))))
  {
    var m := Marker(tag);
    var evs := [StartTag(tag, []), Data(text), EndTag(tag)];
    var q0 := HandleData(p, m);
    var q1 := HandleData(q0, text);
    assert HandleStartTag(p, tag, []) == Ok(q0);
    assert Step(u, q0, evs[1]) == Ok(q1);
    assert HandleEndTag(q1, tag) == Ok(q1.(buffer := AppendEndTag(q1.buffer, m)));
    assert evs[1..][1..] == [EndTag(tag)];
    assert Run(u, q1, [EndTag(tag)]) == Ok(q1.(buffer := AppendEndTag(q1.buffer, m)));
  }

  /** `<em>ws</em>` (and the same for i, strong, b) with `ws` only whitespace,
      possibly none: no marker from the span survives, and the markers the
      buffer already ended with are stripped as well. */
  lemma EmptyEmphasisDropped(u: string -> string, p: Processor, tag: string, ws: string)
    requires tag in {"em", "i", "strong", "b"}
    requires AllSpace(ws)
    ensures Run(u, p, [StartTag(tag, []), Data(ws), EndTag(tag)])
      == Ok(p.(buffer := RStripIn(p.buffer, Marker(tag)) + TrailingBlank(ws)))
    ensures (|p.buffer| == 0 || p.buffer[|p.buffer| - 1] !in Marker(tag)) ==>
      Run(u, p, [StartTag(tag, []), Data(ws), EndTag(tag)]) == Ok(p.(buffer := p.buffer + TrailingBlank(ws)))
  {
    var m := Marker(tag);
    EmphasisRun(u, p, tag, ws);
    RepairCloseEmptySpan(p.buffer, ws, m);
    if |p.buffer| == 0 || p.buffer[|p.buffer| - 1] !in m {
      RStripInDrops(p.buffer, "", m);
      assert p.buffer + "" == p.buffer;
    }
  }

  /** `<em>text ws</em>` with visible text: the text is wrapped in the marker
      and only the last blank of the trailing whitespace follows it. */
  lemma EmphasisSpan(u: string -> string, p: Processor, tag: string, text: string, ws: string)
    requires tag in {"em", "i", "strong", "b"}
    requires |text| > 0 && !IsSpace(text[|text| - 1])
    requires !EndsWith(p.buffer + Marker(tag) + text, Marker(tag))
    requires AllSpace(ws)
    ensures Run(u, p, [StartTag(tag, []), Data(text + ws), EndTag(tag)])
      == Ok(p.(buffer := p.buffer + Marker(tag) + text + Marker(tag) + TrailingBlank(ws)))
  {
    EmphasisRun(u, p, tag, text + ws);
    CloseAfterText(p.buffer + Marker(tag), text, ws, Marker(tag));
  }

  lemma CloseAfterText(open: string, text: string, ws: string, m: string)
    requires |text| > 0 && !IsSpace(text[|text| - 1])
    requires !EndsWith(open + text, m)
    requires AllSpace(ws)
    ensures AppendEndTag(open + (text + ws), m) == open + text + m + TrailingBlank(ws)
  {
    var b := open + text;
    assert open + (text + ws) == b + ws;
    assert b[|b| - 1] == text[|text| - 1];
    RepairCloseNormal(b, ws, m);
  }

  /** The corrected close removes just the opening marker of an empty span and
      leaves everything before it as it was. */
  lemma RepairCloseOnceEmptySpan(b: string, ws: string, end: string)
    requires |end| > 0 && !IsSpace(end[|end| - 1])
    requires AllSpace(ws)
    ensures AppendEndTagOnce(b + end + ws, end) == b + TrailingBlank(ws)
  {
    RStripInDrops(b + end, ws, Whitespace);
    assert (b + end)[..|b + end| - |end|] == b;
    TrailingBlankOfTail(b + end, ws);
  }

  /** On a span with text in it the corrected close is the close as written. */
  lemma RepairCloseOnceAgrees(buf: string, end: string)
    requires !EndsWith(RStrip(buf), end)
    ensures AppendEndTagOnce(buf, end) == AppendEndTag(buf, end)
  {
  }

  // ---------------------------------------------------------------------------
  // One post after another

  /** `_markdownify` forgets the text and the code-block flag of earlier posts;
      only the dialect and the pending link carry over. */
  lemma MarkdownifyForgetsText(u: string -> string, p1: Processor, p2: Processor, events: seq<Event>)
    requires p1.interpreter == p2.interpreter && p1.link == p2.link
    ensures Markdownify(u, p1, events) == Markdownify(u, p2, events)
  {
    assert Reset(p1) == Reset(p2);
  }

  /** With the corrected reset nothing carries over from one post to the next
      but the dialect. */
  lemma FreshPostsDoNotLeak(u: string -> string, p1: Processor, p2: Processor, events: seq<Event>)
    requires p1.interpreter == p2.interpreter
    ensures MarkdownifyFresh(u, p1, events).Ok? <==> MarkdownifyFresh(u, p2, events).Ok?
    ensures MarkdownifyFresh(u, p1, events).Ok? ==>
      MarkdownifyFresh(u, p1, events).value.markdown == MarkdownifyFresh(u, p2, events).value.markdown
  {
  }

  /** Under a known dialect a feed never raises `UnknownInterpreter`. */
  lemma {:induction false} KnownInterpreterNeverRaises(u: string -> string, p: Processor, events: seq<Event>)
    requires KnownInterpreter(p.interpreter)
    ensures !Run(u, p, events).Err? || Run(u, p, events).error == NoOpenLink
    decreases |events|
  {
    if |events| > 0 {
      match Step(u, p, events[0])
      case Ok(q) => KnownInterpreterNeverRaises(u, q, events[1..]);
      case Err(_) =>
    }
  }
}

